=== FILE: README.md ===
# Dice-room betting bot: room lifecycle and settlement

This project models the core of a Telegram bot where two players bet the
same stake on a dice roll.

- A player opens a **room** with a bet. The room is stored as `waiting`, and the player gets an invoice from the crypto payment gateway.
- A second player **joins** the room. This fills seat 2, issues the second invoice and moves the room to `waiting_payment`.
- A **poller** checks the gateway up to thirty times. Once the paid flags allow it, the room is **settled**:
  - two dice are rolled and the higher roll wins;
  - the winner is credited the pot (twice the bet) less the platform fee;
  - the ledger gets a `win` row for the winner and a `project_fee` row for the platform account 0;
  - both players' win and loss statistics are updated.
- Around this engine sit:
  - the persistent store (users, rooms, transactions, media);
  - the inline keyboards and the callback data their buttons carry;
  - the handlers that decode that data;
  - the admin panel: ban and unban, media upload per section, manual deposit, statistics.

The store is an immutable value (`Store.Db`), and every operation is a pure function from a store to a store. The following are parameters of each operation:

- the answers of the payment gateway;
- the dice;
- the clock;
- the platform fee rate, a real in [0, 1).

Money is modelled as unbounded reals.

Modules, following the program's files:

| module | file | content |
|---|---|---|
| `Base` | — | option type, ids, dice, fee rate |
| `Text` | — | Python's `split`, `str(int)`, `int(str)` on the strings the bot produces |
| `Store` | database.py | tables and writes |
| `Queries` | database.py | active rooms, statistics, media lookup |
| `Game` | game_logic.py | create, join, check payment, start game, user statistics |
| `Keyboards` | keyboards.py | buttons, callback data, row chunking |
| `Bot` | main.py | callback decoding, handlers, room list, win rate, payment poller |
| `Admin` | admin_panel.py | admin gate, ban/unban, media upload, deposit |

## Model

| member | source | states |
|---|---|---|
| Store.AddUser | database.py:92-98 | inserting an existing id changes nothing; a new id gets a zero-balance, unbanned account with zero statistics |
| Store.GetUser | database.py:100-105 | a user is found exactly when the id is stored, and the stored row is returned |
| Store.UpdateUserBalance | database.py:107-110 | only the balance of that user changes, by exactly the amount; every other account and every table stay the same; an unknown id changes nothing |
| Store.BanUser | database.py:112-115 | every user with that username gets the flag, and no other user is touched |
| Store.GetRoom | database.py:127-132 | a room is found exactly for the ids that were handed out, and it is the row stored under that id |
| Store.CreateRoom | database.py:118-125 | the new id was free before; afterwards it holds a `waiting` room with the creator as player 1; earlier rooms and the other tables are unchanged; ids keep matching positions |
| Store.ApplyPatch | database.py:134-140 | exactly the named columns take the new values; every other column keeps its value |
| Store.UpdateRoom | database.py:134-140 | only the room with that id changes, by the patch; other rooms and tables are unchanged |
| Store.NoChangeIsIdentity | database.py:134-140 | an update naming no column leaves the store as it was |
| Store.UpdatesCompose | database.py:134-140 | two successive updates equal one update whose later values win |
| Store.AddTransaction | database.py:150-156 | the ledger grows by exactly the one given row at the end; nothing else changes |
| Store.AddMedia | database.py:203-209 | the media table grows by exactly the one given row; nothing else changes |
| Queries.GetActiveRooms | database.py:142-147 | the rooms listed are exactly the `waiting` ones, each as often as stored, newest first |
| Queries.AddTransactionStats | database.py:159-184 | a new ledger row raises the income, deposit or withdrawal total of its own kind by its amount; the other figures stay the same |
| Queries.SumOfAbsentKind | database.py:174-184 | with no row of a kind, the total is 0 rather than NULL |
| Queries.FinishedCountUpdate | database.py:167-168 | rewriting one room changes the finished-games count by that room's change of status alone |
| Queries.FinishedBetsUpdate | database.py:170-172 | rewriting one room changes the sum of finished bets by that room's contribution alone: its old bet out if it was finished, its new bet in if it is |
| Queries.FinishedCountBound | database.py:167-168 | the finished-games count never exceeds the number of rooms |
| Queries.GetBotStats | database.py:159-200 | the user total is the number of accounts; the finished-games total never exceeds the number of rooms; an empty room table gives no games and no bets, and an empty ledger gives zero income, deposits and withdrawals |
| Queries.GetMedia | database.py:211-218 | nothing is found exactly when the section has no row; otherwise the result is a row of that section with the latest creation time |
| Queries.AddMediaThenGet | database.py:203-218 | the row just added to a section, later than all its other rows, is what the next lookup of that section returns |
| Queries.AddMediaOtherSection | database.py:203-218 | adding to one section leaves the lookup of every other section unchanged |
| Game.CreateRoom | game_logic.py:15-40 | an unknown or banned user is refused and nothing changes; otherwise a new `waiting` room is stored before the invoice is requested, so a failed invoice leaves the room behind without an invoice; on success the pay link and the fresh id are returned |
| Game.JoinRoom | game_logic.py:42-71 | a missing room, a room not `waiting` and the creator are refused, and a refusal changes nothing; success happens exactly when none of these applies and the invoice is issued; it sets only player 2, the second invoice and `waiting_payment` |
| Game.JoinIgnoresAccounts | game_logic.py:42-71 | the outcome of joining does not depend on the user table, so a banned or unknown user can join |
| Game.CreatedRoomIsListed | game_logic.py:27-35 | a room opened by a successful create appears in the active list |
| Game.JoinedRoomIsUnlisted | game_logic.py:60-65 | after a successful join, the room is no longer in the active list |
| Game.CheckPayment | game_logic.py:73-103 | a missing room is reported and nothing changes; it succeeds exactly when player 1 is paid and player 2 is paid or absent after the flag updates, and then the room is settled; otherwise only the flags are written |
| Game.CheckPaymentRoom | game_logic.py:79-101 | only the checked room changes; its flags become the post-check flags and seat 2 is kept; it is `finished` exactly on success |
| Game.PaidFlagsMonotone | game_logic.py:79-93 | no check clears a paid flag; a flag is set only when the gateway reports the matching invoice paid; player 2's flag needs a player 2 |
| Game.LoneCreatorSettles | game_logic.py:88-101 | a room with an empty seat 2 settles once player 1's invoice is paid; player 1 wins the doubled pot less the fee |
| Game.FinishedRoomSettlesAgain | game_logic.py:98-101 | a finished room with its flags set is settled again on the next check: new dice and two more ledger rows |
| Game.CheckPaymentOnce | game_logic.py:73-103 | the intended check, guarded on the room's status: a finished room is refused as closed (`RoomNotOpen`) with the store untouched, and any other room is checked as written |
| Game.SettlesOnce | game_logic.py:98-101 | with the guard, a room settles at most once: after a successful check, every later check of that room, whatever the gateway, dice and clock, fails and changes nothing |
| Game.StartGame | game_logic.py:105-153 | only the settled room changes. A tie writes no ledger row and changes no account. A decisive roll appends exactly the winner's `win` row (pot less fee) and the platform's `project_fee` row, then updates the accounts as PaidAccounts says |
| Game.SettlementDice | game_logic.py:109-137 | the room ends `finished` with player 1's die in 1..6; player 2's roll is a die when seat 2 is taken and 0 otherwise; a lone creator always wins; otherwise the strictly higher roll wins and equal rolls tie; the prize is the pot less the fee, or the whole pot on a tie; no other column changes |
| Game.SettlementMoney | game_logic.py:123-126 | on a decisive game, prize plus fee equals the pot, and for a positive bet the prize is positive and the fee lies in [0, pot); on a tie, the whole pot is recorded |
| Game.PrizeSplitsPot | game_logic.py:124-126 | the prize and the fee split the pot exactly |
| Game.ShareOfPot | game_logic.py:125-126 | a fee below the pot and the rest of the pot add back up to the pot, and each stays within it |
| Game.PayOut | game_logic.py:140-150 | exactly the two ledger rows, in order, are appended; the accounts become PaidAccounts; the rooms and media are unchanged |
| Game.PaidAccountsSettle | game_logic.py:140-150 | each account comes out of a decisive game settled as the winner, as the loser, or untouched |
| Game.SettlementAccounts | game_logic.py:140-172 | the winner's balance rises by the prize, plus one win and twice the bet staked; the loser gains one loss and the bet staked; every other account, the platform's included, is unchanged |
| Game.UpdateUserStats | game_logic.py:155-172 | a win adds one win, a loss adds one loss, and the amount is added to the total staked; a missing user changes nothing; the balance and every other account are unchanged |
| Game.SettlementIncome | game_logic.py:140-146 | the platform income in the statistics rises by the fee on a decisive game and stays on a tie |
| Game.IncomeAppend | database.py:174-176 | a new ledger row changes the platform income only by its own amount, and only when it is a fee row |
| Game.SettlementGameCount | game_logic.py:129-137 | the finished-games count rises by one, unless the room was already finished |
| Game.SettlementBetTotal | game_logic.py:129-137 | the total of finished bets rises by the room's bet, unless the room was already finished |
| Game.SettlementReconciles | game_logic.py:140-150 | if every player's balance equals the sum of their ledger rows before settlement, it still does afterwards |
| Game.PayOutReconciles | game_logic.py:142-146 | crediting the winner together with the winner's prize row keeps every player's balance equal to their ledger sum |
| Keyboards.ChunksShape | keyboards.py:23-30 | chunks give back the items in order; no row is empty; every row holds at most the width, and every row but the last holds exactly the width |
| Keyboards.ChunkRows | keyboards.py:23-30 | the row-building loop produces exactly the reference chunking |
| Keyboards.BetKeyboard | keyboards.py:20-31 | the seven presets appear in order in rows of 3, 3 and 1, each carrying `bet_<amount>` |
| Keyboards.CreatorTag | keyboards.py:36 | the creator is shown as `@username` exactly when the username is non-empty, otherwise as `ID: <id>` |
| Keyboards.RoomsKeyboard | keyboards.py:33-39 | one row per room, in order, each holding one button that carries `join_<room id>` and its creator tag |
| Keyboards.UserManagementKeyboard | keyboards.py:41-48 | a banned user gets the unban button and others get the ban button, followed by the stats button |
| Keyboards.MediaSectionsKeyboard | keyboards.py:50-70 | the seven sections appear in order in rows of 2, 2, 2 and 1, each carrying `media_<section>`, followed by the back button alone |
| Bot.DecodeBet | main.py:106 | data decodes exactly when its second `_`-field is a non-empty run of digits, and the bet it gives is a non-negative whole number |
| Bot.DecodeJoin | main.py:177 | data decodes exactly when its second `_`-field is a non-empty run of digits |
| Bot.BetRoundTrip | main.py:106 | decoding a bet button's data gives back its bet |
| Bot.BetKeyboardDecodes | main.py:106 | every button of the bet keyboard decodes to its preset |
| Bot.JoinRoundTrip | main.py:177 | decoding a join button's data gives back its room id |
| Bot.RoomsKeyboardDecodes | main.py:177 | every button of the room list decodes to the room it was made for |
| Bot.ProcessBet | main.py:104-122 | data that does not decode changes nothing; otherwise the room is created, and a poller for the new room starts exactly when creation succeeded and the message was then edited into the pay link |
| Bot.JoinHandler | main.py:175-191 | data that does not decode changes nothing; otherwise the join runs, and a poller for that room starts exactly when the join succeeded and the message was then edited into the pay link |
| Bot.BetButtonOpensRoom | main.py:104-122 | a known, unbanned user pressing a bet button, with the invoice issued, opens a room with that bet; its poller starts if and only if the edit into the pay link went through |
| Bot.PlayersCount | main.py:167 | the count is 1 or 2, and it is 2 exactly when seat 2 is taken |
| Bot.RoomEntries | main.py:159-168 | one entry per listed room, in order, with its id, creator, bet and player count; a creator missing from the store is shown as `Unknown` |
| Bot.CreateKeepsSeatOne | game_logic.py:15-40 | creating a room keeps every `waiting` room with an empty seat 2 |
| Bot.JoinKeepsSeatOne | game_logic.py:42-71 | a join keeps every `waiting` room with an empty seat 2, because filling seat 2 also moves the room out of `waiting` |
| Bot.CheckKeepsSeatOne | game_logic.py:73-103 | a payment check keeps every `waiting` room with an empty seat 2 |
| Bot.ListedRoomsShowOnePlayer | main.py:159-168 | when every `waiting` room has an empty seat 2, every listed room shows one player |
| Bot.ListedRoomJoins | main.py:175-191 | pressing the button of a listed room joins that very room, unless the presser is its creator |
| Bot.WinRate | main.py:228 | the win rate is in [0, 100], is 0 with no games, equals the percentage of wins among games, and is 100 with wins and no losses |
| Bot.RatioBounds | main.py:228 | a share of a positive whole, scaled to percent, lies in [0, 100] and scales back to the part |
| Bot.Polled | main.py:124-130 | the reference poller makes no more checks than the attempts left, makes none exactly when no attempt is left, and then leaves the store as it was |
| Bot.PolledShape | main.py:124-130 | the poller checks at least once and at most the remaining attempts; it stops at the first success, and it fails only after using every attempt |
| Bot.PollPayment | main.py:125-130 | the loop of up to thirty checks, stopping at the first success, ends in the store and with the results of the reference poller |
| Bot.CheckPaymentPeriodically | main.py:124-130 | the polling loop equals the reference poller. It makes 1 to 30 checks, all but the last failing. It sends the paid notice to the user exactly when the last check succeeded |
| Bot.AttemptSettles | game_logic.py:73-103 | one payment check keeps the number of rooms and leaves the checked room finished when it succeeds and with its status unchanged when it fails |
| Bot.PolledSettlesRoom | main.py:124-130 | for any check that settles a room this way, the poller keeps the number of rooms, and the outcome of its last check decides the room's final status |
| Bot.PolledSettles | main.py:124-130 | run with the real payment check, a poller that ends on a success (the one that notifies the user) leaves the room finished; one that gives up leaves the room's status as it was |
| Bot.SettledRoomSettlesAgain | main.py:124-130 | after a successful check, the room is finished with its flags kept, so any later check settles it again |
| Bot.PolledOnceLeavesFinished | main.py:124-130 | a poller with the guarded check, started on a finished room, makes every check fail and leaves the store as it was |
| Bot.SettledRoomStaysSettled | main.py:124-130 | with the guarded check, a second poller for a room the first one settled changes nothing and never reports success |
| Bot.PolledOnceSettles | main.py:124-130 | the guarded poller keeps the room in the store; ending on a success leaves it finished and giving up leaves its status as it was |
| Admin.AdminEntry | admin_panel.py:15-28 | the entry points run only in the default state: elsewhere, and for a sender outside the admin list, there is no answer and the state is kept; an admin in the default state always gets an answer; only the deposit entry moves the state on; the stats entry reports the store's statistics |
| Admin.UserActionRoundTrip | admin_panel.py:105-121 | with the intended decoding, the ban and unban buttons decode to their action and the whole username |
| Admin.UserActionAsWrittenCuts | admin_panel.py:106-108 | as written, the username is cut at its first `_`, and comes back whole exactly when it has no `_` |
| Admin.UserActionAsWrittenExample | admin_panel.py:106-108 | as written, the ban button of `john_doe` bans `john` |
| Admin.BanAsWrittenHitsPrefix | admin_panel.py:105-111 | as written, the ban and unban buttons of a username ban or unban the users named by its text before the first `_` |
| Admin.BanUnbanUser | admin_panel.py:105-121 | with the intended decoding, `ban_<name>` and `unban_<name>` set or clear only the banned flag of exactly the users named `<name>`, the same as `ban_user`; any other action, and data without a `_`, changes nothing; every other user, column and table is unchanged |
| Admin.BanUnbanUserAsWritten | admin_panel.py:105-121 | as written, the same holds with the action as the first `_`-field and the name as the second |
| Admin.ApplyUserAction | admin_panel.py:110-121 | `ban` sets the flag, `unban` clears it, and any other action changes nothing |
| Admin.ToggleButtonFlips | admin_panel.py:105-121 | with the intended decoding, the toggle button of the user card flips the banned flag of exactly the users with that name |
| Admin.MediaSectionRoundTrip | admin_panel.py:132-136 | with the intended decoding, every section button decodes to its whole section |
| Admin.SectionsMenuDecodes | admin_panel.py:132-136 | with the intended decoding, every button of the sections menu decodes to its section |
| Admin.MediaSectionAsWrittenCuts | admin_panel.py:133 | as written, a section is cut at its first `_`, and comes back whole exactly when it has no `_` |
| Admin.CreateRoomSectionCut | admin_panel.py:133 | as written, `media_create_room` decodes to section `create` |
| Admin.CreateRoomUploadLost | admin_panel.py:132-179 | as written, an upload through the create-room button, started in the default state, is stored under `create`; the lookup of `create_room` is unchanged |
| Admin.SelectMediaSection | admin_panel.py:132-141 | with the intended decoding, a section button in the default state moves the conversation to waiting for the file of its whole section; in any other state, or for data without a `_`, the state is kept |
| Admin.SelectMediaSectionAsWritten | admin_panel.py:132-141 | as written, a section button in the default state moves the conversation to waiting for the file of the second `_`-field of its data; in any other state, or for data without a `_`, the state is kept |
| Admin.PickMedia | admin_panel.py:147-158 | the largest photo wins, then a video, then an animation; there is none exactly when the message carries none of the three |
| Admin.ProcessMedia | admin_panel.py:143-166 | with a file, the conversation waits for its caption; without one, it keeps waiting for the file |
| Admin.CaptionOf | admin_panel.py:173 | a lone `-` means an empty caption; any other text is the caption |
| Admin.ProcessMediaCaption | admin_panel.py:168-179 | when waiting for a caption, exactly one media row is stored and the conversation ends; in any other state nothing changes |
| Admin.UploadIsShown | admin_panel.py:132-179 | with the intended decoding, a section button in the default state, a file and a caption, uploaded later than the section's other rows, make that file the next one shown for the section |
| Admin.ProcessDepositAmount | admin_panel.py:205-231 | a missing or non-positive amount changes nothing; a positive one raises that user's balance by the amount and appends one deposit row; the conversation ends only when the confirmation and the notice were sent, and otherwise stays on the same user |
| Admin.DepositCounted | admin_panel.py:216-217 | a deposit raises the deposits total of the statistics by its amount |
| Admin.LedgerAppend | admin_panel.py:216-217 | a new ledger row changes one account's ledger sum only by its own amount |
| Admin.FailedNoticeCreditsAgain | admin_panel.py:205-231 | after a failed notice, the next positive amount credits the same user again: the balance rises by both amounts, two rows are added and the deposits total counts both |
| Admin.DepositReconciles | admin_panel.py:216-217 | a deposit keeps every player's balance equal to their ledger sum |
| Text.Split | admin_panel.py:106 | the split always has at least one field, and no field contains the separator |
| Text.SplitJoin | admin_panel.py:106 | joining the fields of a split with the separator gives back the string, so nothing is lost or added |
| Text.AfterFirstOfTagged | admin_panel.py:133 | the text after the first separator of tag, separator, payload is the whole payload |
| Text.SecondFieldOfTagged | admin_panel.py:133 | the second field of tag, separator, payload is the payload cut at its first separator; it is the whole payload exactly when the payload has no separator |
| Text.ParseNatRoundTrip | main.py:177 | parsing the decimal rendering of a number gives the number back |

## Left out

- The payment gateway (crypto_api.py) is not modelled as code. `create_invoice` becomes an `Option<Invoice>` argument. `get_invoice` becomes a lookup function from invoice id to reported status.
- Randomness, the clock and sleeping are parameters: the dice, the timestamp and the per-attempt world.
- Concurrency is not modelled. One poller starts for every successful create (main.py:120) and every successful join (main.py:189) whose message edit went through, with no bound on their number, and each makes up to thirty checks. The model runs each poller against the store alone. Bot.SettledRoomSettlesAgain shows what a second poller for the same room does, and the third row under "## Findings" follows from it.
- Bot.ProcessBet, Bot.JoinHandler, Bot.BetButtonOpensRoom: `edited` is Telegram's answer to the `edit_text` that turns the pressed message into the pay link (main.py:112 and :182). That edit comes before the poller is started (main.py:120 and :189), so when it fails the room row exists but no poller checks it. The model takes the answer as a parameter and does not say when Telegram refuses. One refusal follows from the source: once a `create_room` media row exists, the bet buttons sit under a photo, animation or video (main.py:79-97). Such a message has no text to edit, so no created room gets a poller. That cannot happen as written, because the first row under "## Findings" keeps every upload out of the `create_room` section. The room list is always a text message (main.py:170-173), so Bot.ListedRoomJoins takes the join's edit to succeed.
- Admin.ProcessDepositAmount: `notified` is Telegram's answer to the confirmation (admin_panel.py:219) and the user's notice (admin_panel.py:222-225). Either can fail, for example when the user has blocked the bot. Both sends come after the two writes and before `state.finish()` (admin_panel.py:231), outside the `except ValueError`. The model takes the answer as a parameter and does not say when Telegram refuses.
- Telegram and FSM mechanics are not modelled: message sending, editing, photos and markup rendering, and the conversation storage. Message texts appear only where an operation returns them.
- Handler dispatch is not modelled as one function. Each handler function states what that handler does, and the handlers registered without a state filter act only in the default state: the admin entry points and the section buttons take the state and require it to be the default. Three more such handlers take no state and model the tap as handled: the ban and unban buttons (`ban_unban_user`, admin_panel.py:246, Admin.BanUnbanUser) and the bet and join buttons (main.py:104 and :175, Bot.ProcessBet and Bot.JoinHandler). In the middle of an admin conversation, such a tap by the admin is not handled. In another state the message goes to that state's handler instead: in the caption state, `/admin` or a menu text is saved as the caption by `process_media_caption` (admin_panel.py:250), which Admin.ProcessMediaCaption models for any text.
- `show_balance`, `show_stats` (apart from the win rate) and the menus are presentation only. `send_game_results` (game_logic.py:174-207) is not modelled. It runs after every write of the settlement (game_logic.py:129-150), and its `send_message` calls can raise. Two examples: a player who blocked the bot, and a Markdown message built from a username holding one `_`. When it raises, the room is already finished and the ledger rows exist, but the poller dies before the notice at main.py:129, and player 2 may get no result.
- `cmd_start` (main.py:31-38) is the only caller of `add_user`. Store.AddUser models that write; the media greeting that follows it is presentation.
- `cancel_action` (admin_panel.py:233-235) ends the admin conversation from any state. It is not modelled as its own operation.
- The catch-all text handler `handle_cryptopay_webhook` (main.py:249-253) is registered before `register_admin_handlers` runs (main.py:266). aiogram 2 hands a message to the first handler that matches, so in the default state this stub takes `/admin` and the admin menu texts. Admin.AdminEntry states what each admin entry point does when it is reached. That the running bot never reaches them is not modelled.
- `process_username`, `find_user_by_username` and the `stats_` callback have no handler that changes the store.
- `process_username` opens `aiosqlite` (admin_panel.py:56), which admin_panel.py never imports, so as written it raises NameError. The user card whose ban and unban buttons Admin.BanUnbanUser and Admin.BanUnbanUserAsWritten decode is then never shown. The model decodes the buttons as if the card had been shown.
- `process_deposit_username` is left out: it calls a database method `get_user_by_username` that database.py does not define. The deposit flow is modelled from the amount step, with the chosen user as part of the state.
- The SQL engine, the schema creation and the `bot_stats` table are not modelled. Neither are the `today_stats` field of `get_bot_stats` or the transaction timestamps.
- Amounts are unbounded reals, not IEEE floats: there is no rounding, no NaN and no infinity. A deposit of `nan` or `inf`, which `float()` accepts, is not modelled.
- Python truthiness of ids and usernames is modelled as presence. This covers `if winner_id:`, `room['player2_id']` and `room.get('creator_username')`. It differs from the source only for the id 0 or an empty username.
- `start_game` calls `datetime.now()` on the `datetime` module imported at game_logic.py:1, which raises AttributeError at game_logic.py:136. `update_user_stats` calls `db.db.execute`, which the database class does not have. The model gives both the effect their authors evidently meant.
- The `rooms` table (database.py:31-48) has no `invoice_id` or `invoice_id_2` column, and the model gives its rooms both anyway. As written, three things fail. The `update_room` at game_logic.py:34 raises "no such column"; the handler at :39 catches it, so every create whose invoice succeeds reports failure and leaves an orphan `waiting` room. The join at :60-65 fails the same way. `room.get('invoice_id')` at :81 is always None, so `check_payment` never sets a paid flag. Game.CreateRoom, Game.JoinRoom and Game.CheckPayment model the intended schema with both columns.
- `ban_unban_user` and `select_media_section` check no admin rights in the source, and the model adds none.
- Exceptions raised inside `create_room` and `join_room` other than a failed invoice are not modelled. A failed invoice is modelled as its error result.
- Bot.CheckPaymentPeriodically, Bot.Polled, Bot.PolledShape and Bot.PolledSettles: every check either succeeds or fails. In the source, a network or JSON error in `get_invoice` raises, and so can `start_game`. Neither `check_payment` (game_logic.py:73-103) nor `check_payment_periodically` (main.py:124-130) catches it, so the poller task ends early without the notice and before using every attempt. What it leaves depends on where the error happens. An error in `get_invoice` or before the room update at game_logic.py:129 leaves no settlement. An error between the writes at game_logic.py:129-150 leaves the writes made before it. An error in `send_game_results` (game_logic.py:153) leaves a fully settled room and no notice. The model does not include this early exit.
- Queries.GetMedia: among rows of a section created in the same second, the model returns the one inserted last. `ORDER BY created_at DESC LIMIT 1` does not promise that order. Queries.AddMediaThenGet and Admin.UploadIsShown therefore require the new row to be strictly newer than the section's other rows.
- Bot.DecodeBet: `float()` accepts more spellings than the digit strings modelled (signs, decimals, exponents); the bot only produces digit strings.
- Bot.DecodeJoin: `int()` accepts signs, spaces and underscores, which are not modelled; the bot only produces digit strings.
- Game.SettlementReconciles: stated only for a room whose two seats hold different users, and whose winner is not the platform account 0.
- Bot.CheckPaymentPeriodically: the generic check is any function of the store and the attempt number. The per-attempt gateway answers, dice and clock are folded into it.

## Findings

| source | as written | input that shows it | evidently intended | confidence | as-written member | corrected member |
|---|---|---|---|---|---|---|
| admin_panel.py:133 | `call.data.split('_')[1]` takes the second `_`-field as the media section | the button `media_create_room` selects section `create`; the upload is stored where the `create_room` lookup never finds it | the whole text after the first `_` (`split('_', 1)[1]`) | not executed | Admin.CreateRoomSectionCut | Admin.MediaSectionRoundTrip |
| admin_panel.py:106-108 | `call.data.split('_')` takes the second field as the username | the button `ban_john_doe` bans the user `john` instead of `john_doe` | the action is the text before the first `_`, and the username is everything after it | not executed | Admin.UserActionAsWrittenExample | Admin.UserActionRoundTrip |
| game_logic.py:73-103 | `check_payment` settles whenever both paid flags are set, without looking at the room's status, so a finished room settles again | a joined room has two pollers, one from the create (main.py:120) and one from the join (main.py:189); once one of them settles the room, the other's next check rolls new dice and writes a second `win` and `project_fee` pair | a room settles at most once: a check of a finished room changes nothing | not executed | Game.FinishedRoomSettlesAgain | Game.SettlesOnce |

=== FILE: admin.dfy ===
/** The admin panel of admin_panel.py: the gate on its entry points, the
    ban and unban buttons, attaching media to a screen section, and manual
    deposits. The conversation state the panel keeps between messages is
    an explicit value. */
module Admin {
  import opened Base
  import opened Text
  import opened Store
  import opened Queries
  import opened Game
  import opened Keyboards

  /** Where the admin conversation stands. */
  datatype AdminState =
    | Idle
    | WaitingForDeposit
    | WaitingForMedia(section: string)
    | WaitingForCaption(section: string, fileId: string, fileType: FileType)
    | WaitingForDepositAmount(username: string, userId: UserId)

  // ----------------------------------------------------------------- gate

  /** The panel's entry points, each bound to a menu text or `/admin`. */
  datatype AdminCommand = OpenPanel | ShowStats | ManageUsers | ManageMedia | StartDeposit

  /** What an entry point answers. */
  datatype AdminReply =
    | PanelMenu
    | StatsReport(stats: BotStats)
    | FindUserPrompt
    | SectionsMenu
    | DepositPrompt

  /** `admin_start`, `admin_stats`, `admin_user_management`,
      `admin_media_management` and `admin_deposit`. They are registered
      without a state filter, so they run only in the default state: in any
      other state, and for a sender outside the admin list, there is no
      answer and the conversation state stays. An admin in the default state
      always gets one, and only the deposit entry moves the state on. */
  function AdminEntry(admins: set<UserId>, sender: UserId, cmd: AdminCommand, db: Db, st: AdminState): (r: (AdminState, Option<AdminReply>))
    ensures r.1.Some? <==> sender in admins && st.Idle?
    ensures r.1.None? ==> r.0 == st
    ensures r.0 != st ==> sender in admins && st.Idle? && cmd == StartDeposit && r.0 == WaitingForDeposit
    ensures sender in admins && st.Idle? && cmd == ShowStats ==> r.1 == Some(StatsReport(GetBotStats(db)))
  {
    if !st.Idle? || sender !in admins then (st, None)
    else
      match cmd
      case OpenPanel => (st, Some(PanelMenu))
      case ShowStats => (st, Some(StatsReport(GetBotStats(db))))
      case ManageUsers => (st, Some(FindUserPrompt))
      case ManageMedia => (st, Some(SectionsMenu))
      case StartDeposit => (WaitingForDeposit, Some(DepositPrompt))
  }

  // ------------------------------------------------------------ ban, unban

  /** `ban_unban_user` as written: the action is the first `'_'`-field and
      the username the second. */
  function UserActionAsWritten(data: string): Option<(string, string)>
  {
    match Field(data, Sep, 1)
    case None => None
    case Some(name) => Some((Field(data, Sep, 0).value, name))
  }

  /** The intended decoding: the action is the text before the first `'_'`
      and the username all the text after it. */
  function UserAction(data: string): Option<(string, string)>
  {
    match AfterFirst(data, Sep)
    case None => None
    case Some(name) => Some((BeforeFirst(data, Sep), name))
  }

  /** The ban and unban buttons decode to their action and the whole
      username, whatever it contains. */
  lemma UserActionRoundTrip(name: string)
    ensures UserAction(BanCallback(name)) == Some(("ban", name))
    ensures UserAction(UnbanCallback(name)) == Some(("unban", name))
  {
    AfterFirstOfTagged("ban", Sep, name);
    BeforeFirstOfTagged("ban", Sep, name);
    AfterFirstOfTagged("unban", Sep, name);
    BeforeFirstOfTagged("unban", Sep, name);
  }

  /** As written, the username comes back cut at its first `'_'`: intact
      exactly when it has none. */
  lemma UserActionAsWrittenCuts(name: string)
    ensures UserActionAsWritten(BanCallback(name)) == Some(("ban", BeforeFirst(name, Sep)))
    ensures UserActionAsWritten(BanCallback(name)) == Some(("ban", name)) <==> Sep !in name
    ensures UserActionAsWritten(UnbanCallback(name)) == Some(("unban", BeforeFirst(name, Sep)))
  {
    FirstFieldOfTagged("ban", Sep, name);
    SecondFieldOfTagged("ban", Sep, name);
    FirstFieldOfTagged("unban", Sep, name);
    SecondFieldOfTagged("unban", Sep, name);
  }

  /** The ban button of `john_doe` bans `john` as written. */
  lemma UserActionAsWrittenExample()
    ensures UserActionAsWritten(BanCallback("john_doe")) == Some(("ban", "john"))
  {
    var data := BanCallback("john_doe");
    assert data == "ban" + [Sep] + ("john" + [Sep] + "doe");
    SplitAfterPrefix("ban", Sep, "john" + [Sep] + "doe");
    SplitAfterPrefix("john", Sep, "doe");
  }

  /** The effect of a decoded action: `ban` sets the flag, `unban` clears
      it, anything else changes nothing. */
  function ApplyUserAction(db: Db, action: string, username: string): (r: Db)
    ensures action == "ban" ==> r == BanUser(db, username, true)
    ensures action == "unban" ==> r == BanUser(db, username, false)
    ensures action != "ban" && action != "unban" ==> r == db
  {
    if action == "ban" then BanUser(db, username, true)
    else if action == "unban" then BanUser(db, username, false)
    else db
  }

  /** `ban_unban_user` with the intended decoding. The source puts no admin
      check on this callback. */
  function BanUnbanUser(db: Db, data: string): (r: Db)
    ensures UserAction(data).None? ==> r == db
    ensures r.users.Keys == db.users.Keys && r.rooms == db.rooms && r.txns == db.txns && r.media == db.media
    ensures UserAction(data).Some? ==>
      var (action, name) := UserAction(data).value;
      && (forall u :: u in db.users && db.users[u].username != Some(name) ==> r.users[u] == db.users[u])
      && (action == "ban" ==> forall u :: u in db.users && db.users[u].username == Some(name) ==> r.users[u] == db.users[u].(isBanned := true))
      && (action == "unban" ==> forall u :: u in db.users && db.users[u].username == Some(name) ==> r.users[u] == db.users[u].(isBanned := false))
      && (action == "ban" ==> r == BanUser(db, name, true))
      && (action == "unban" ==> r == BanUser(db, name, false))
      && (action != "ban" && action != "unban" ==> r == db)
  {
    match UserAction(data)
    case None => db
    case Some((action, name)) => ApplyUserAction(db, action, name)
  }

  /** `ban_unban_user` as written. */
  function BanUnbanUserAsWritten(db: Db, data: string): (r: Db)
    ensures UserActionAsWritten(data).None? ==> r == db
    ensures r.users.Keys == db.users.Keys && r.rooms == db.rooms && r.txns == db.txns && r.media == db.media
    ensures UserActionAsWritten(data).Some? ==>
      var (action, name) := UserActionAsWritten(data).value;
      && (forall u :: u in db.users && db.users[u].username != Some(name) ==> r.users[u] == db.users[u])
      && (action == "ban" ==> forall u :: u in db.users && db.users[u].username == Some(name) ==> r.users[u] == db.users[u].(isBanned := true))
      && (action == "unban" ==> forall u :: u in db.users && db.users[u].username == Some(name) ==> r.users[u] == db.users[u].(isBanned := false))
      && (action == "ban" ==> r == BanUser(db, name, true))
      && (action == "unban" ==> r == BanUser(db, name, false))
      && (action != "ban" && action != "unban" ==> r == db)
  {
    match UserActionAsWritten(data)
    case None => db
    case Some((action, name)) => ApplyUserAction(db, action, name)
  }

  /** The toggle button of the user card flips the banned flag of every
      user with that username to the opposite of what the card showed, and
      changes nothing else. */
  lemma ToggleButtonFlips(db: Db, name: string, isBanned: bool)
    ensures var r := BanUnbanUser(db, UserManagementKeyboard(name, isBanned)[0][0].callback);
            && r.users.Keys == db.users.Keys
            && (forall u :: u in db.users && db.users[u].username == Some(name) ==> r.users[u] == db.users[u].(isBanned := !isBanned))
            && (forall u :: u in db.users && db.users[u].username != Some(name) ==> r.users[u] == db.users[u])
            && r.rooms == db.rooms && r.txns == db.txns && r.media == db.media
  {
    UserActionRoundTrip(name);
  }

  /** As written, the ban and unban buttons of a username with a `'_'` ban
      or unban the users named by its first part instead. */
  lemma BanAsWrittenHitsPrefix(db: Db, name: string)
    ensures BanUnbanUserAsWritten(db, BanCallback(name)) == BanUser(db, BeforeFirst(name, Sep), true)
    ensures BanUnbanUserAsWritten(db, UnbanCallback(name)) == BanUser(db, BeforeFirst(name, Sep), false)
  {
    UserActionAsWrittenCuts(name);
  }

  // ---------------------------------------------------------------- media

  /** `select_media_section` as written: the second `'_'`-field. */
  function MediaSectionAsWritten(data: string): Option<string>
  {
    Field(data, Sep, 1)
  }

  /** The intended decoding: everything after the first `'_'`. */
  function MediaSection(data: string): Option<string>
  {
    AfterFirst(data, Sep)
  }

  /** Every section button decodes to its own section. */
  lemma MediaSectionRoundTrip(section: string)
    ensures MediaSection(MediaCallback(section)) == Some(section)
  {
    AfterFirstOfTagged("media", Sep, section);
  }

  /** Every button of the sections menu decodes to its section. */
  lemma SectionsMenuDecodes()
    ensures forall k :: 0 <= k < |MediaSections| ==>
      MediaSection(SectionButtons(MediaSections)[k].callback) == Some(MediaSections[k].0)
  {
    forall k | 0 <= k < |MediaSections|
      ensures MediaSection(SectionButtons(MediaSections)[k].callback) == Some(MediaSections[k].0)
    {
      MediaSectionRoundTrip(MediaSections[k].0);
    }
  }

  /** As written, a section comes back cut at its first `'_'`: intact
      exactly when it has none. */
  lemma MediaSectionAsWrittenCuts(section: string)
    ensures MediaSectionAsWritten(MediaCallback(section)) == Some(BeforeFirst(section, Sep))
    ensures MediaSectionAsWritten(MediaCallback(section)) == Some(section) <==> Sep !in section
  {
    SecondFieldOfTagged("media", Sep, section);
  }

  /** The conversation after a section button: waiting for the file of the
      decoded section. The handler has no state filter, so it runs only in
      the default state; elsewhere the tap is not handled and the state
      stays. Data without a `'_'` never reaches this handler. */
  function SelectMediaSection(st: AdminState, data: string): (r: AdminState)
    ensures st.Idle? && MediaSection(data).Some? ==> r == WaitingForMedia(MediaSection(data).value)
    ensures !st.Idle? || MediaSection(data).None? ==> r == st
  {
    if !st.Idle? then st
    else
      match MediaSection(data)
      case None => st
      case Some(section) => WaitingForMedia(section)
  }

  /** `select_media_section` as written. */
  function SelectMediaSectionAsWritten(st: AdminState, data: string): (r: AdminState)
    ensures st.Idle? && MediaSectionAsWritten(data).Some? ==> r == WaitingForMedia(MediaSectionAsWritten(data).value)
    ensures !st.Idle? || MediaSectionAsWritten(data).None? ==> r == st
  {
    if !st.Idle? then st
    else
      match MediaSectionAsWritten(data)
      case None => st
      case Some(section) => WaitingForMedia(section)
  }

  /** What an incoming message carries: the sizes of a photo (largest
      last), a video, an animation. */
  datatype Incoming = Incoming(photos: seq<string>, video: Option<string>, animation: Option<string>)

  /** The file `process_media` keeps: the largest photo size, else the
      video, else the animation. */
  function PickMedia(msg: Incoming): (r: Option<(string, FileType)>)
    ensures r.None? <==> |msg.photos| == 0 && msg.video.None? && msg.animation.None?
    ensures |msg.photos| > 0 ==> r == Some((msg.photos[|msg.photos| - 1], Photo))
    ensures r.Some? && r.value.1 == Video ==> |msg.photos| == 0 && msg.video.Some? && r.value.0 == msg.video.value
    ensures r.Some? && r.value.1 == Gif ==> |msg.photos| == 0 && msg.video.None? && r.value.0 == msg.animation.value
    ensures |msg.photos| == 0 && msg.video.Some? ==> r == Some((msg.video.value, Video))
    ensures |msg.photos| == 0 && msg.video.None? && msg.animation.Some? ==> r == Some((msg.animation.value, Gif))
  {
    if |msg.photos| > 0 then Some((msg.photos[|msg.photos| - 1], Photo))
    else if msg.video.Some? then Some((msg.video.value, Video))
    else if msg.animation.Some? then Some((msg.animation.value, Gif))
    else None
  }

  /** `process_media`: with a file, wait for its caption; without one,
      stay waiting for a file. */
  function ProcessMedia(section: string, msg: Incoming): (r: AdminState)
    ensures PickMedia(msg).None? ==> r == WaitingForMedia(section)
    ensures PickMedia(msg).Some? ==> r == WaitingForCaption(section, PickMedia(msg).value.0, PickMedia(msg).value.1)
  {
    match PickMedia(msg)
    case None => WaitingForMedia(section)
    case Some((fileId, fileType)) => WaitingForCaption(section, fileId, fileType)
  }

  /** The caption rule: a lone `-` means no caption. */
  function CaptionOf(text: string): (c: string)
    ensures text == "-" ==> c == ""
    ensures text != "-" ==> c == text
  {
    if text == "-" then "" else text
  }

  /** `process_media_caption`: store the file under its section with the
      caption and end the conversation. Outside that state nothing happens. */
  function ProcessMediaCaption(db: Db, st: AdminState, text: string, now: Timestamp): (r: (Db, AdminState))
    ensures st.WaitingForCaption? ==>
      r == (AddMedia(db, st.section, st.fileType, st.fileId, CaptionOf(text), now), Idle)
    ensures !st.WaitingForCaption? ==> r == (db, st)
  {
    match st
    case WaitingForCaption(section, fileId, fileType) =>
      (AddMedia(db, section, fileType, fileId, CaptionOf(text), now), Idle)
    case _ => (db, st)
  }

  /** The whole upload from the default state, with the intended decoding:
      a section button, a message with a file, a caption. The section's next lookup returns the
      upload, provided it is newer than the section's other rows. */
  lemma UploadIsShown(db: Db, section: string, msg: Incoming, text: string, now: Timestamp)
    requires PickMedia(msg).Some?
    requires forall i :: 0 <= i < |db.media| && db.media[i].section == section ==> db.media[i].createdAt < now
    ensures var chosen := SelectMediaSection(Idle, MediaCallback(section));
            var r := ProcessMediaCaption(db, ProcessMedia(section, msg), text, now);
            && chosen == WaitingForMedia(section)
            && r.1 == Idle
            && GetMedia(r.0.media, section) == Some(Media(section, PickMedia(msg).value.1, PickMedia(msg).value.0, CaptionOf(text), now))
  {
    MediaSectionRoundTrip(section);
    var file := PickMedia(msg).value;
    AddMediaThenGet(db, section, file.1, file.0, CaptionOf(text), now);
  }

  /** As written, the data `media_create_room` decodes to `create`. */
  lemma CreateRoomSectionCut()
    ensures MediaSectionAsWritten(MediaCallback("create_room")) == Some("create")
  {
    var data := MediaCallback("create_room");
    assert data == "media" + [Sep] + "create" + [Sep] + "room";
    SplitAfterPrefix("media", Sep, "create" + [Sep] + "room");
    SplitAfterPrefix("create", Sep, "room");
    assert data == "media" + [Sep] + ("create" + [Sep] + "room");
  }

  /** As written, the create-room button selects section `create`, so what
      the admin uploads for it never reaches the create-room screen, which
      looks up `create_room`. */
  lemma CreateRoomUploadLost(db: Db, msg: Incoming, text: string, now: Timestamp)
    ensures var chosen := SelectMediaSectionAsWritten(Idle, MediaCallback("create_room"));
            var r := ProcessMediaCaption(db, ProcessMedia("create", msg), text, now);
            && chosen == WaitingForMedia("create")
            && GetMedia(r.0.media, "create_room") == GetMedia(db.media, "create_room")
  {
    CreateRoomSectionCut();
    match PickMedia(msg)
    case None =>
    case Some((fileId, fileType)) =>
      AddMediaOtherSection(db, "create", "create_room", fileType, fileId, CaptionOf(text), now);
  }

  // -------------------------------------------------------------- deposit

  const DepositDescription: string := "Пополнение администратором"

  /** `process_deposit_amount`: `amount` is the parsed text, None where
      `float()` raises. A missing or non-positive amount is refused with the
      store and the state untouched. A positive one is added to the user's
      balance and logged as one deposit row; then the user is notified, and
      only after that does the conversation end. `notified` is Telegram's
      answer to the admin's confirmation and to that notice: when either
      send fails, the error escapes the handler after both writes, and the
      conversation stays on the same user. */
  function ProcessDepositAmount(db: Db, st: AdminState, amount: Option<real>, notified: bool): (r: (Db, AdminState))
    ensures !st.WaitingForDepositAmount? || amount.None? || amount.value <= 0.0 ==> r == (db, st)
    ensures st.WaitingForDepositAmount? && amount.Some? && amount.value > 0.0 ==>
      var id := st.userId;
      && r.1 == (if notified then Idle else st)
      && r.0.users.Keys == db.users.Keys
      && (id in db.users ==> r.0.users[id] == db.users[id].(balance := db.users[id].balance + amount.value))
      && (forall u :: u in db.users && u != id ==> r.0.users[u] == db.users[u])
      && r.0.txns == db.txns + [Txn(id, amount.value, Deposit, None, DepositDescription)]
      && r.0.rooms == db.rooms && r.0.media == db.media
  {
    match st
    case WaitingForDepositAmount(_, userId) =>
      if amount.None? || amount.value <= 0.0 then (db, st)
      else
        var credited := UpdateUserBalance(db, userId, amount.value);
        (AddTransaction(credited, userId, amount.value, Deposit, None, DepositDescription), if notified then Idle else st)
    case _ => (db, st)
  }


  /** A deposit raises the deposit total of the statistics by its amount. */
  lemma DepositCounted(db: Db, username: string, userId: UserId, amount: real, notified: bool)
    requires amount > 0.0
    ensures GetBotStats(ProcessDepositAmount(db, WaitingForDepositAmount(username, userId), Some(amount), notified).0).totalDeposits
         == GetBotStats(db).totalDeposits + amount
  {
    AddTransactionStats(UpdateUserBalance(db, userId, amount), userId, amount, Deposit, None, DepositDescription);
  }

  /** When the notice fails, the conversation stays on the same user, so
      the admin's next positive amount credits that user a second time, and
      both amounts count as deposits in the statistics. */
  lemma FailedNoticeCreditsAgain(db: Db, username: string, userId: UserId, amount: real, again: real, notified: bool)
    requires amount > 0.0 && again > 0.0 && userId in db.users
    ensures var st := WaitingForDepositAmount(username, userId);
            var first := ProcessDepositAmount(db, st, Some(amount), false);
            var second := ProcessDepositAmount(first.0, first.1, Some(again), notified);
            && first.1 == st
            && second.0.users[userId].balance == db.users[userId].balance + amount + again
            && |second.0.txns| == |db.txns| + 2
            && GetBotStats(second.0).totalDeposits == GetBotStats(db).totalDeposits + amount + again
  {
    DepositCounted(db, username, userId, amount, false);
    var first := ProcessDepositAmount(db, WaitingForDepositAmount(username, userId), Some(amount), false);
    DepositCounted(first.0, username, userId, again, notified);
  }

  /** Appending a row changes one account's ledger sum by that row alone. */
  lemma LedgerAppend(txns: seq<Txn>, t: Txn, user: UserId)
    ensures LedgerSum(txns + [t], user) == LedgerSum(txns, user) + (if t.userId == user then t.amount else 0.0)
  {
    assert (txns + [t])[..|txns|] == txns;
  }

  /** A deposit keeps every player's balance equal to their ledger sum. */
  lemma DepositReconciles(db: Db, st: AdminState, amount: Option<real>, notified: bool)
    requires Reconciled(db)
    ensures Reconciled(ProcessDepositAmount(db, st, amount, notified).0)
  {
    var r := ProcessDepositAmount(db, st, amount, notified).0;
    if st.WaitingForDepositAmount? && amount.Some? && amount.value > 0.0 {
      var t := Txn(st.userId, amount.value, Deposit, None, DepositDescription);
      forall u | u in r.users && u != ProjectAccount
        ensures r.users[u].balance == LedgerSum(r.txns, u)
      {
        LedgerAppend(db.txns, t, u);
      }
    }
  }
}

=== FILE: base.dfy ===
/** Shared vocabulary of the dice-betting bot: optional values, identifiers,
    timestamps, dice and the platform fee rate. */
module Base {

  /** The Some/None datatype standing for a Python value that may be `None`
      (or a SQL column that may be NULL). */
  datatype Option<+T> = None | Some(value: T)

  /** Telegram user ids. Id 0 is the platform's own ledger account. */
  type UserId = nat

  /** Room ids are assigned by the store from 1 upwards and never reused. */
  type RoomId = nat

  /** Invoice references issued by the payment gateway. */
  type InvoiceId = nat

  /** Timestamps are opaque, but ordered, values supplied by the environment. */
  type Timestamp = int

  /** One roll of a six-sided die. */
  type Die = x: int | 1 <= x <= 6 witness 1

  /** The configured share of the pot the platform keeps on a decisive game. */
  type FeeRate = r: real | 0.0 <= r < 1.0 witness 0.0

  /** The ledger account that receives the platform fee. */
  const ProjectAccount: UserId := 0
}

=== FILE: bot.dfy ===
/** The user-facing handlers of main.py that carry logic: decoding the bet
    and join callbacks, starting a payment poller only after a successful
    create or join, the bounded poller itself, the players count of the
    room list and the win rate of the stats screen. */
module Bot {
  import opened Base
  import opened Text
  import opened Store
  import opened Queries
  import opened Game
  import opened Keyboards

  // ------------------------------------------------------ callback decoding

  /** `float(call.data.split('_')[1])` in `process_bet`, on the digit
      strings the bet buttons carry; None where Python raises. */
  function DecodeBet(data: string): (r: Option<real>)
    ensures var f := Field(data, Sep, 1);
            r.Some? <==> f.Some? && |f.value| > 0 && AllDigits(f.value)
    ensures r.Some? ==> 0.0 <= r.value && r.value.Floor as real == r.value
  {
    match Field(data, Sep, 1)
    case None => None
    case Some(f) =>
      match ParseNat(f)
      case None => None
      case Some(n) => Some(n as real)
  }

  /** `int(call.data.split('_')[1])` in `join_room`; None where Python
      raises. */
  function DecodeJoin(data: string): (r: Option<RoomId>)
    ensures var f := Field(data, Sep, 1);
            r.Some? <==> f.Some? && |f.value| > 0 && AllDigits(f.value)
  {
    match Field(data, Sep, 1)
    case None => None
    case Some(f) => ParseNat(f)
  }

  /** Decoding the data of a bet button gives its bet back. */
  lemma BetRoundTrip(bet: nat)
    ensures DecodeBet(BetCallback(bet)) == Some(bet as real)
  {
    DigitsHaveNoSep(bet);
    SecondFieldOfTagged("bet", Sep, NatToString(bet));
    ParseNatRoundTrip(bet);
  }

  /** Every button of the bet keyboard decodes to its preset. */
  lemma BetKeyboardDecodes()
    ensures forall k :: 0 <= k < |BetPresets| ==>
      DecodeBet(BetButtons(BetPresets)[k].callback) == Some(BetPresets[k] as real)
  {
    forall k | 0 <= k < |BetPresets|
      ensures DecodeBet(BetButtons(BetPresets)[k].callback) == Some(BetPresets[k] as real)
    {
      BetRoundTrip(BetPresets[k]);
    }
  }

  /** Decoding the data of a join button gives its room id back. */
  lemma JoinRoundTrip(id: RoomId)
    ensures DecodeJoin(JoinCallback(id)) == Some(id)
  {
    DigitsHaveNoSep(id);
    SecondFieldOfTagged("join", Sep, NatToString(id));
    ParseNatRoundTrip(id);
  }

  /** Every button of the room list decodes to the room it was made for. */
  lemma RoomsKeyboardDecodes(entries: seq<RoomEntry>)
    ensures forall k :: 0 <= k < |entries| ==>
      DecodeJoin(RoomsKeyboard(entries)[k][0].callback) == Some(entries[k].id)
  {
    forall k | 0 <= k < |entries|
      ensures DecodeJoin(RoomsKeyboard(entries)[k][0].callback) == Some(entries[k].id)
    {
      JoinRoundTrip(entries[k].id);
    }
  }

  // ---------------------------------------------------------- handlers

  /** A payment poller a handler starts: the room it polls and the user it
      notifies. */
  datatype Poller = Poller(roomId: RoomId, userId: UserId)

  /** What a callback handler leaves behind: the store, and the poller it
      started, if any. */
  datatype Handled = Handled(db: Db, poller: Option<Poller>)

  /** `process_bet`: data that does not decode raises before anything
      happens; otherwise the room is created. On success the handler first
      edits the message into the pay link and only then starts the poller,
      so a poller for the new room starts exactly when creation succeeded
      and the edit went through. `edited` is Telegram's answer to that
      edit. */
  function ProcessBet(db: Db, userId: UserId, data: string, now: Timestamp, invoice: Option<Invoice>, edited: bool): (h: Handled)
    ensures DecodeBet(data).None? ==> h == Handled(db, None)
    ensures DecodeBet(data).Some? ==> h.db == Game.CreateRoom(db, userId, DecodeBet(data).value, now, invoice).db
    ensures h.poller.Some? <==>
      DecodeBet(data).Some? && userId in db.users && !db.users[userId].isBanned && invoice.Some? && edited
    ensures h.poller.Some? ==> h.poller.value == Poller(|db.rooms| + 1, userId)
  {
    match DecodeBet(data)
    case None => Handled(db, None)
    case Some(bet) =>
      var s := Game.CreateRoom(db, userId, bet, now, invoice);
      Handled(s.db, if s.result.Ok? && edited then Some(Poller(s.result.value.roomId, userId)) else None)
  }

  /** The `join_room` handler: data that does not decode raises before
      anything happens; otherwise the join is attempted. As in
      `process_bet`, the poller starts after the edit into the pay link,
      so exactly when the join succeeded and the edit went through. */
  function JoinHandler(db: Db, userId: UserId, data: string, invoice: Option<Invoice>, edited: bool): (h: Handled)
    ensures DecodeJoin(data).None? ==> h == Handled(db, None)
    ensures DecodeJoin(data).Some? ==> h.db == JoinRoom(db, userId, DecodeJoin(data).value, invoice).db
    ensures h.poller.Some? <==>
      && DecodeJoin(data).Some?
      && GetRoom(db, DecodeJoin(data).value).Some?
      && db.rooms[DecodeJoin(data).value - 1].status == Waiting
      && db.rooms[DecodeJoin(data).value - 1].creatorId != userId
      && invoice.Some?
      && edited
    ensures h.poller.Some? ==> h.poller.value == Poller(DecodeJoin(data).value, userId)
  {
    match DecodeJoin(data)
    case None => Handled(db, None)
    case Some(roomId) =>
      var s := JoinRoom(db, userId, roomId, invoice);
      Handled(s.db, if s.result.Ok? && edited then Some(Poller(roomId, userId)) else None)
  }

  /** A bet button pressed by a known, unbanned user opens a room with that
      bet once the gateway issues an invoice; its poller starts only when
      the message could be edited into the pay link. */
  lemma BetButtonOpensRoom(db: Db, userId: UserId, bet: nat, now: Timestamp, invoice: Invoice, edited: bool)
    requires userId in db.users && !db.users[userId].isBanned
    ensures var h := ProcessBet(db, userId, BetCallback(bet), now, Some(invoice), edited);
            && h.poller == (if edited then Some(Poller(|db.rooms| + 1, userId)) else None)
            && GetRoom(h.db, |db.rooms| + 1) == Some(OpenedRoom(|db.rooms| + 1, userId, bet as real, now, invoice.invoiceId))
  {
    BetRoundTrip(bet);
  }

  // --------------------------------------------------------- room list

  /** `players_count` in `show_rooms`: one for the creator, plus one when
      seat 2 is taken. */
  function PlayersCount(room: Room): (n: nat)
    ensures n == 1 || n == 2
    ensures n == 2 <==> room.player2Id.Some?
  {
    1 + (if room.player2Id.Some? then 1 else 0)
  }

  /** The entries `show_rooms` builds: a creator missing from the store is
      shown under the name 'Unknown'. */
  function RoomEntries(db: Db, rooms: seq<Room>): (r: seq<RoomEntry>)
    ensures |r| == |rooms|
    ensures forall k :: 0 <= k < |rooms| ==>
      && r[k].id == rooms[k].id && r[k].creatorId == rooms[k].creatorId && r[k].betAmount == rooms[k].betAmount
      && r[k].playersCount == PlayersCount(rooms[k])
      && r[k].creatorUsername == (if rooms[k].creatorId in db.users then db.users[rooms[k].creatorId].username else Some("Unknown"))
  {
    seq(|rooms|, k requires 0 <= k < |rooms| =>
      RoomEntry(rooms[k].id, rooms[k].creatorId,
                if rooms[k].creatorId in db.users then db.users[rooms[k].creatorId].username else Some("Unknown"),
                rooms[k].betAmount, PlayersCount(rooms[k])))
  }

  /** A room open for joining has nobody in seat 2. */
  ghost predicate OpenRoomsSeatOne(db: Db) {
    forall k :: 0 <= k < |db.rooms| && db.rooms[k].status == Waiting ==> db.rooms[k].player2Id.None?
  }

  /** Creating a room keeps open rooms single-seated. */
  lemma CreateKeepsSeatOne(db: Db, userId: UserId, bet: real, now: Timestamp, invoice: Option<Invoice>)
    requires OpenRoomsSeatOne(db)
    ensures OpenRoomsSeatOne(Game.CreateRoom(db, userId, bet, now, invoice).db)
  {
    var s := Game.CreateRoom(db, userId, bet, now, invoice);
    if userId in db.users && !db.users[userId].isBanned {
      assert s.db.rooms[|db.rooms|].player2Id.None?;
      forall k | 0 <= k < |s.db.rooms| && s.db.rooms[k].status == Waiting
        ensures s.db.rooms[k].player2Id.None?
      {
        if k < |db.rooms| {
          assert s.db.rooms[k] == s.db.rooms[..|db.rooms|][k];
        }
      }
    }
  }

  /** Joining a room moves it out of 'waiting' as it fills seat 2. */
  lemma JoinKeepsSeatOne(db: Db, userId: UserId, roomId: RoomId, invoice: Option<Invoice>)
    requires OpenRoomsSeatOne(db)
    ensures OpenRoomsSeatOne(JoinRoom(db, userId, roomId, invoice).db)
  {
  }

  /** Checking a payment touches only paid flags, or finishes the room. */
  lemma CheckKeepsSeatOne(db: Db, roomId: RoomId, lookup: InvoiceLookup, d1: Die, d2: Die, now: Timestamp, rate: FeeRate)
    requires OpenRoomsSeatOne(db)
    ensures OpenRoomsSeatOne(CheckPayment(db, roomId, lookup, d1, d2, now, rate).db)
  {
    if GetRoom(db, roomId).Some? {
      CheckPaymentRoom(db, roomId, lookup, d1, d2, now, rate);
    }
  }

  /** Every room on the list shows one player of two. */
  lemma ListedRoomsShowOnePlayer(db: Db)
    requires OpenRoomsSeatOne(db)
    ensures forall e :: e in RoomEntries(db, GetActiveRooms(db)) ==> e.playersCount == 1
  {
    var rooms := GetActiveRooms(db);
    var entries := RoomEntries(db, rooms);
    forall e | e in entries
      ensures e.playersCount == 1
    {
      var k :| 0 <= k < |entries| && entries[k] == e;
      assert rooms[k] in db.rooms;
    }
  }

  /** Pressing the button of a listed room joins that very room, unless it
      is the presser's own room or the gateway issues no invoice. The room
      list is always a text message, so the edit into the pay link is taken
      to go through. */
  lemma ListedRoomJoins(db: Db, userId: UserId, k: nat, invoice: Invoice)
    requires RoomIdsMatch(db)
    requires k < |GetActiveRooms(db)|
    requires GetActiveRooms(db)[k].creatorId != userId
    ensures var kb := RoomsKeyboard(RoomEntries(db, GetActiveRooms(db)));
            var room := GetActiveRooms(db)[k];
            JoinHandler(db, userId, kb[k][0].callback, Some(invoice), true).poller == Some(Poller(room.id, userId))
  {
    var rooms := GetActiveRooms(db);
    var entries := RoomEntries(db, rooms);
    var kb: Keyboard := RoomsKeyboard(entries);
    var room := rooms[k];
    JoinRoundTrip(entries[k].id);
    var data: string := kb[k][0].callback;
    assert DecodeJoin(data) == Some(room.id);
    assert room in db.rooms && room.status == Waiting;
    var i :| 0 <= i < |db.rooms| && db.rooms[i] == room;
    assert room.id == i + 1 && db.rooms[room.id - 1] == room;
    assert GetRoom(db, room.id) == Some(room);
    var h := JoinHandler(db, userId, data, Some(invoice), true);
    assert h.poller.Some?;
  }

  // ----------------------------------------------------------- win rate

  /** The win rate of `show_stats`, in percent: 0 with no games played. */
  function WinRate(wins: nat, losses: nat): (r: real)
    ensures 0.0 <= r <= 100.0
    ensures wins + losses == 0 ==> r == 0.0
    ensures r * (wins + losses) as real == 100.0 * wins as real
    ensures losses == 0 && wins > 0 ==> r == 100.0
  {
    if wins + losses > 0 then
      var n := (wins + losses) as real;
      var w := wins as real;
      RatioBounds(w, n);
      (w / n) * 100.0
    else 0.0
  }

  /** A share of a positive whole, scaled to percent. */
  lemma RatioBounds(w: real, n: real)
    requires 0.0 <= w <= n && n > 0.0
    ensures 0.0 <= (w / n) * 100.0 <= 100.0
    ensures ((w / n) * 100.0) * n == 100.0 * w
    ensures w == n ==> (w / n) * 100.0 == 100.0
  {
    assert (w / n) * n == w;
    assert w / n <= 1.0;
  }

  // -------------------------------------------------------------- poller

  /** How many times the poller checks a payment before giving up. */
  const MaxAttempts: nat := 30

  /** What `check_payment` says when it settles the room. */
  const PaidNotice: string := "Оплата подтверждена, игра начинается!"

  /** A message the poller sends. */
  datatype Notice = Notice(to: UserId, text: string)

  /** The world the poller meets at each attempt: the gateway's answers,
      the dice a settlement would roll, the clock, and the fee rate. */
  datatype PollEnv = PollEnv(
    lookup: nat -> InvoiceLookup,
    die1: nat -> Die,
    die2: nat -> Die,
    clock: nat -> Timestamp,
    rate: FeeRate)

  /** The check at attempt `a`. */
  function Attempt(db: Db, roomId: RoomId, env: PollEnv, a: nat): Step<()>
  {
    CheckPayment(db, roomId, env.lookup(a), env.die1(a), env.die2(a), env.clock(a), env.rate)
  }

  /** A payment check as the poller sees it: the store and the attempt
      number in, the check's outcome out. */
  type Check = (Db, nat) -> Step<()>

  /** `game_manager.check_payment(room_id)` for one room in a given world. */
  function PaymentCheck(roomId: RoomId, env: PollEnv): Check
  {
    (db: Db, a: nat) => Attempt(db, roomId, env, a)
  }

  /** The reference poller: from attempt `a` on, check until one check
      succeeds or the attempts run out. The store afterwards, and whether
      each check made succeeded. */
  function Polled(check: Check, db: Db, a: nat): (r: (Db, seq<bool>))
    requires a <= MaxAttempts
    ensures |r.1| <= MaxAttempts - a
    ensures |r.1| == 0 <==> a == MaxAttempts
    ensures |r.1| == 0 ==> r.0 == db
    decreases MaxAttempts - a
  {
    if a == MaxAttempts then (db, [])
    else
      var s := check(db, a);
      if s.result.Ok? then (s.db, [true])
      else
        var rest := Polled(check, s.db, a + 1);
        (rest.0, [false] + rest.1)
  }

  /** The reference poller makes at least one and at most the remaining
      checks, stops at the first that succeeds, and makes them all when
      none does. */
  lemma {:induction false} PolledShape(check: Check, db: Db, a: nat)
    requires a < MaxAttempts
    ensures var results := Polled(check, db, a).1;
            && 0 < |results| <= MaxAttempts - a
            && (forall k :: 0 <= k < |results| - 1 ==> !results[k])
            && (!results[|results| - 1] ==> |results| == MaxAttempts - a)
    decreases MaxAttempts - a
  {
    var s := check(db, a);
    if s.result.Err? && a + 1 < MaxAttempts {
      PolledShape(check, s.db, a + 1);
      var rest := Polled(check, s.db, a + 1).1;
      assert Polled(check, db, a).1 == [false] + rest;
    }
  }

  /** A successful check ends the reference poller. */
  lemma PolledOk(check: Check, db: Db, a: nat, s: Step<()>)
    requires a < MaxAttempts && s == check(db, a) && s.result.Ok?
    ensures Polled(check, db, a) == (s.db, [true])
  {
  }

  /** A failed check hands the poller on to the next attempt. */
  lemma PolledErr(check: Check, db: Db, a: nat, s: Step<()>)
    requires a < MaxAttempts && s == check(db, a) && s.result.Err?
    ensures Polled(check, db, a).0 == Polled(check, s.db, a + 1).0
    ensures Polled(check, db, a).1 == [false] + Polled(check, s.db, a + 1).1
  {
  }

  /** A failed check moves one result from the rest of the poller onto
      the results so far. */
  lemma PolledAdvance(check: Check, whole: seq<bool>, results: seq<bool>, db: Db, a: nat, s: Step<()>)
    requires a < MaxAttempts && s == check(db, a) && s.result.Err?
    requires whole == results + Polled(check, db, a).1
    ensures Polled(check, db, a).0 == Polled(check, s.db, a + 1).0
    ensures whole == (results + [false]) + Polled(check, s.db, a + 1).1
  {
    PolledErr(check, db, a, s);
    var rest := Polled(check, s.db, a + 1).1;
    assert results + ([false] + rest) == (results + [false]) + rest;
  }

  /** The loop of `check_payment_periodically`: up to thirty checks (the
      ten-second sleeps are left out), stopping at the first success.
      `results` records each check made. */
  method PollPayment(check: Check, db: Db) returns (after: Db, results: seq<bool>)
    ensures (after, results) == Polled(check, db, 0)
  {
    after, results := db, [];
    var a := 0;
    ghost var whole := Polled(check, db, 0);
    assert [] + whole.1 == whole.1;
    while a < MaxAttempts
      invariant 0 <= a <= MaxAttempts
      invariant whole.0 == Polled(check, after, a).0
      invariant whole.1 == results + Polled(check, after, a).1
      decreases MaxAttempts - a
    {
      var s := check(after, a);
      if s.result.Ok? {
        PolledOk(check, after, a, s);
        after := s.db;
        results := results + [true];
        return;
      }
      PolledAdvance(check, whole.1, results, after, a, s);
      after := s.db;
      results := results + [false];
      a := a + 1;
    }
    assert results + [] == results;
  }

  /** `check_payment_periodically`: the polling loop, then the check's
      message to the user when the last check made succeeded; nothing is
      sent when every check fails. The handlers pass
      `PaymentCheck(room_id, env)`. */
  method CheckPaymentPeriodically(check: Check, db: Db, userId: UserId)
    returns (after: Db, results: seq<bool>, sent: seq<Notice>)
    ensures (after, results) == Polled(check, db, 0)
    ensures 0 < |results| <= MaxAttempts
    ensures forall k :: 0 <= k < |results| - 1 ==> !results[k]
    ensures !results[|results| - 1] ==> |results| == MaxAttempts
    ensures sent == if results[|results| - 1] then [Notice(userId, PaidNotice)] else []
  {
    after, results := PollPayment(check, db);
    PolledShape(check, db, 0);
    sent := if results[|results| - 1] then [Notice(userId, PaidNotice)] else [];
  }



  /** One check keeps the room's place and settles its status: finished
      on success, as it was otherwise. */
  lemma AttemptSettles(db: Db, roomId: RoomId, env: PollEnv, a: nat)
    requires 1 <= roomId <= |db.rooms|
    ensures var s := Attempt(db, roomId, env, a);
            && |s.db.rooms| == |db.rooms|
            && s.db.rooms[roomId - 1].status == (if s.result.Ok? then Finished else db.rooms[roomId - 1].status)
  {
    CheckPaymentRoom(db, roomId, env.lookup(a), env.die1(a), env.die2(a), env.clock(a), env.rate);
  }

  /** `check` keeps the store's room count and settles the room at index
      `i`: finished on success, as it was otherwise. */
  ghost predicate Settles(check: Check, i: nat)
  {
    forall d: Db, k: nat {:trigger check(d, k)} :: i < |d.rooms| ==>
      && |check(d, k).db.rooms| == |d.rooms|
      && check(d, k).db.rooms[i].status == (if check(d, k).result.Ok? then Finished else d.rooms[i].status)
  }

  /** The poller run with any check that settles room `i`: the room keeps
      its place, the last check made decides its status. */
  lemma {:induction false} PolledSettlesRoom(check: Check, db: Db, i: nat, a: nat)
    requires Settles(check, i) && i < |db.rooms| && a <= MaxAttempts
    ensures var p := Polled(check, db, a);
            && |p.0.rooms| == |db.rooms|
            && (|p.1| > 0 && p.1[|p.1| - 1] ==> p.0.rooms[i].status == Finished)
            && (|p.1| > 0 && !p.1[|p.1| - 1] ==> p.0.rooms[i].status == db.rooms[i].status)
    decreases MaxAttempts - a
  {
    if a < MaxAttempts {
      var s := check(db, a);
      if s.result.Ok? {
        PolledOk(check, db, a, s);
      } else {
        PolledErr(check, db, a, s);
        PolledSettlesRoom(check, s.db, i, a + 1);
        var rest := Polled(check, s.db, a + 1).1;
        var results := Polled(check, db, a).1;
        if |rest| == 0 {
          assert results == [false];
        } else {
          assert results[|results| - 1] == rest[|rest| - 1];
        }
      }
    }
  }

  /** The poller run with the real payment check: the room keeps its place
      in the store; a poller that ends on a successful check (the one that
      notifies the user) leaves the room finished, and one that gives up
      leaves its status as it was. */
  lemma PolledSettles(db: Db, roomId: RoomId, env: PollEnv, a: nat)
    requires 1 <= roomId <= |db.rooms| && a <= MaxAttempts
    ensures var p := Polled(PaymentCheck(roomId, env), db, a);
            && |p.0.rooms| == |db.rooms|
            && (|p.1| > 0 && p.1[|p.1| - 1] ==> p.0.rooms[roomId - 1].status == Finished)
            && (|p.1| > 0 && !p.1[|p.1| - 1] ==> p.0.rooms[roomId - 1].status == db.rooms[roomId - 1].status)
  {
    var check := PaymentCheck(roomId, env);
    forall d: Db, k: nat | roomId - 1 < |d.rooms|
      ensures && |check(d, k).db.rooms| == |d.rooms|
              && check(d, k).db.rooms[roomId - 1].status == (if check(d, k).result.Ok? then Finished else d.rooms[roomId - 1].status)
    {
      AttemptSettles(d, roomId, env, k);
    }
    PolledSettlesRoom(check, db, roomId - 1, a);
  }



  /** A successful check leaves the room finished with its flags still
      set, so any later check of the same room succeeds again: a second
      poller for the room (the creator's and the joiner's are both started)
      settles it a second time. */
  lemma SettledRoomSettlesAgain(db: Db, roomId: RoomId, env: PollEnv, a: nat, b: nat)
    requires Attempt(db, roomId, env, a).result.Ok?
    ensures var after := Attempt(db, roomId, env, a).db;
            && after.rooms[roomId - 1].status == Finished
            && Attempt(after, roomId, env, b).result.Ok?
  {
    CheckPaymentRoom(db, roomId, env.lookup(a), env.die1(a), env.die2(a), env.clock(a), env.rate);
  }

  // ------------------------------------------------- settling at most once

  /** The intended check for one room, with the guard on the room's status. */
  function PaymentCheckOnce(roomId: RoomId, env: PollEnv): Check
  {
    (db: Db, a: nat) => CheckPaymentOnce(db, roomId, env.lookup(a), env.die1(a), env.die2(a), env.clock(a), env.rate)
  }

  /** A poller with the guarded check, started on a room that has already
      finished, makes every check fail and leaves the store as it was. */
  lemma {:induction false} PolledOnceLeavesFinished(db: Db, roomId: RoomId, env: PollEnv, a: nat)
    requires 1 <= roomId <= |db.rooms| && db.rooms[roomId - 1].status == Finished && a <= MaxAttempts
    ensures var p := Polled(PaymentCheckOnce(roomId, env), db, a);
            && p.0 == db
            && forall k :: 0 <= k < |p.1| ==> !p.1[k]
    decreases MaxAttempts - a
  {
    if a < MaxAttempts {
      var check := PaymentCheckOnce(roomId, env);
      var s := CheckPaymentOnce(db, roomId, env.lookup(a), env.die1(a), env.die2(a), env.clock(a), env.rate);
      assert check(db, a) == s == Step(db, Err(RoomNotOpen));
      PolledErr(check, db, a, s);
      PolledOnceLeavesFinished(db, roomId, env, a + 1);
    }
  }

  /** With the guard, a second poller for a room the first one settled
      changes nothing and never reports success. */
  lemma SettledRoomStaysSettled(db: Db, roomId: RoomId, env: PollEnv, a: nat, env': PollEnv)
    requires PaymentCheckOnce(roomId, env)(db, a).result.Ok?
    ensures var after := PaymentCheckOnce(roomId, env)(db, a).db;
            var p := Polled(PaymentCheckOnce(roomId, env'), after, 0);
            && p.0 == after
            && forall k :: 0 <= k < |p.1| ==> !p.1[k]
  {
    var s := PaymentCheckOnce(roomId, env)(db, a);
    CheckPaymentRoom(db, roomId, env.lookup(a), env.die1(a), env.die2(a), env.clock(a), env.rate);
    PolledOnceLeavesFinished(s.db, roomId, env', 0);
  }


  /** The guarded poller settles rooms as the unguarded one does: the room
      keeps its place, a poller that ends on a success leaves it finished,
      and one that gives up leaves its status as it was. */
  lemma PolledOnceSettles(db: Db, roomId: RoomId, env: PollEnv, a: nat)
    requires 1 <= roomId <= |db.rooms| && a <= MaxAttempts
    ensures var p := Polled(PaymentCheckOnce(roomId, env), db, a);
            && |p.0.rooms| == |db.rooms|
            && (|p.1| > 0 && p.1[|p.1| - 1] ==> p.0.rooms[roomId - 1].status == Finished)
            && (|p.1| > 0 && !p.1[|p.1| - 1] ==> p.0.rooms[roomId - 1].status == db.rooms[roomId - 1].status)
  {
    var check := PaymentCheckOnce(roomId, env);
    forall d: Db, k: nat | roomId - 1 < |d.rooms|
      ensures && |check(d, k).db.rooms| == |d.rooms|
              && check(d, k).db.rooms[roomId - 1].status == (if check(d, k).result.Ok? then Finished else d.rooms[roomId - 1].status)
    {
      AttemptSettles(d, roomId, env, k);
    }
    PolledSettlesRoom(check, db, roomId - 1, a);
  }

}

=== FILE: game.dfy ===
/** The room lifecycle and settlement engine (game_logic.py): creating and
    joining rooms, checking invoice payments, rolling the dice and paying
    out. The payment gateway is an oracle whose answers are parameters, and
    so are the dice and the clock. */
module Game {
  import opened Base
  import opened Store
  import opened Queries

  /** Why an operation did not go through. Each case stands for the message
      text the source returns for it. */
  datatype Reason =
    | UserNotFound       // "Пользователь не найден"
    | UserBanned         // "Вы забанены"
    | PaymentInitFailed  // "Ошибка создания платежа"
    | RoomNotFound       // "Комната не найдена"
    | RoomNotOpen        // "Комната уже занята или игра завершена"
    | OwnRoom            // "Вы не можете присоединиться к своей комнате"
    | AwaitingPayment    // "Ожидание оплаты"

  datatype Result<T> = Ok(value: T) | Err(reason: Reason)

  /** The new store together with what the operation reports. */
  datatype Step<T> = Step(db: Db, result: Result<T>)

  /** What the gateway's `create_invoice` returns when it succeeds. */
  datatype Invoice = Invoice(invoiceId: InvoiceId, payUrl: string)

  /** The `status` of an invoice as the gateway reports it. */
  datatype InvoiceStatus = Active | Paid | Expired

  /** The gateway's answer to `get_invoice` for each invoice id; None when
      the gateway replies with a status other than 200, with `ok` false, or
      with no item. A network or decoding error raises instead, which is not
      part of this model. */
  type InvoiceLookup = InvoiceId -> Option<InvoiceStatus>

  /** A successfully created room: the payment link and the room id. */
  datatype Opened = Opened(payUrl: string, roomId: RoomId)

  const WinDescription: string := "Выигрыш в игре"
  const FeeDescription: string := "Комиссия проекта"

  // ------------------------------------------------------------ create

  /** The room row right after `create_room` succeeded with `invoice`. */
  function OpenedRoom(id: RoomId, creator: UserId, bet: real, now: Timestamp, invoice: InvoiceId): Room
  {
    NewRoom(id, creator, bet, now).(invoiceId := Some(invoice))
  }

  /** `GameManager.create_room`. An unknown or banned user is turned away
      with the store untouched. Otherwise the room is stored BEFORE the
      invoice is requested, so a failed invoice leaves a 'waiting' room
      without an invoice behind. */
  function CreateRoom(db: Db, userId: UserId, bet: real, now: Timestamp, invoice: Option<Invoice>): (s: Step<Opened>)
    ensures userId !in db.users ==> s == Step(db, Err(UserNotFound))
    ensures userId in db.users && db.users[userId].isBanned ==> s == Step(db, Err(UserBanned))
    ensures userId in db.users && !db.users[userId].isBanned ==>
      var id := |db.rooms| + 1;
      && GetRoom(db, id).None?
      && |s.db.rooms| == |db.rooms| + 1 && s.db.rooms[..|db.rooms|] == db.rooms
      && s.db.users == db.users && s.db.txns == db.txns && s.db.media == db.media
      && (invoice.None? ==> s.result == Err(PaymentInitFailed) && GetRoom(s.db, id) == Some(NewRoom(id, userId, bet, now)))
      && (invoice.Some? ==> s.result == Ok(Opened(invoice.value.payUrl, id))
                            && GetRoom(s.db, id) == Some(OpenedRoom(id, userId, bet, now, invoice.value.invoiceId)))
    ensures RoomIdsMatch(db) ==> RoomIdsMatch(s.db)
  {
    match GetUser(db, userId)
    case None => Step(db, Err(UserNotFound))
    case Some(user) =>
      if user.isBanned then Step(db, Err(UserBanned))
      else
        var created := Store.CreateRoom(db, userId, bet, now);
        var id := created.1;
        match invoice
        case None => Step(created.0, Err(PaymentInitFailed))
        case Some(inv) => Step(UpdateRoom(created.0, id, NoChange.(invoiceId := Some(inv.invoiceId))), Ok(Opened(inv.payUrl, id)))
  }

  // -------------------------------------------------------------- join

  /** What `join_room` writes into the room. */
  function JoinPatch(userId: UserId, invoice: InvoiceId): RoomPatch
  {
    NoChange.(player2Id := Some(userId), invoiceId2 := Some(invoice), status := Some(WaitingPayment))
  }

  /** `GameManager.join_room`. It refuses a missing room, a room that is not
      'waiting' and the room's own creator, changing nothing; it makes no
      check on the joiner's account (existence or ban). On success exactly
      player 2, the second invoice and the status change. */
  function JoinRoom(db: Db, userId: UserId, roomId: RoomId, invoice: Option<Invoice>): (s: Step<string>)
    ensures s.result.Err? ==> s.db == db
    ensures GetRoom(db, roomId).None? ==> s.result == Err(RoomNotFound)
    ensures GetRoom(db, roomId).Some? && db.rooms[roomId - 1].status != Waiting ==> s.result == Err(RoomNotOpen)
    ensures GetRoom(db, roomId).Some? && db.rooms[roomId - 1].status == Waiting && db.rooms[roomId - 1].creatorId == userId ==>
      s.result == Err(OwnRoom)
    ensures s.result.Ok? <==>
      GetRoom(db, roomId).Some? && db.rooms[roomId - 1].status == Waiting && db.rooms[roomId - 1].creatorId != userId && invoice.Some?
    ensures s.result.Ok? ==>
      var room := db.rooms[roomId - 1];
      && s.result.value == invoice.value.payUrl
      && |s.db.rooms| == |db.rooms|
      && s.db.rooms[roomId - 1] == room.(player2Id := Some(userId), invoiceId2 := Some(invoice.value.invoiceId), status := WaitingPayment)
      && (forall k :: 0 <= k < |db.rooms| && k != roomId - 1 ==> s.db.rooms[k] == db.rooms[k])
      && s.db.users == db.users && s.db.txns == db.txns && s.db.media == db.media
    ensures RoomIdsMatch(db) ==> RoomIdsMatch(s.db)
  {
    match GetRoom(db, roomId)
    case None => Step(db, Err(RoomNotFound))
    case Some(room) =>
      if room.status != Waiting then Step(db, Err(RoomNotOpen))
      else if room.creatorId == userId then Step(db, Err(OwnRoom))
      else
        match invoice
        case None => Step(db, Err(PaymentInitFailed))
        case Some(inv) => Step(UpdateRoom(db, roomId, JoinPatch(userId, inv.invoiceId)), Ok(inv.payUrl))
  }

  // ----------------------------------------------------------- settlement

  /** Player 2's roll: the die when there is a player 2, else 0. */
  function SecondRoll(room: Room, d2: Die): int
  {
    if room.player2Id.Some? then d2 else 0
  }

  /** The strictly higher roll wins; equal rolls give no winner. */
  function WinnerOf(room: Room, d1: Die, d2: Die): Option<UserId>
  {
    var r2 := SecondRoll(room, d2);
    if d1 > r2 then Some(room.player1Id) else if r2 > d1 then room.player2Id else None
  }

  /** The other player on a decisive roll (None when player 1 beat an empty
      seat, or on a tie). */
  function LoserOf(room: Room, d1: Die, d2: Die): Option<UserId>
  {
    var r2 := SecondRoll(room, d2);
    if d1 > r2 then room.player2Id else if r2 > d1 then Some(room.player1Id) else None
  }

  /** The pot is always twice the bet, even with one player. */
  function Pot(room: Room): real { room.betAmount * 2.0 }

  function Fee(room: Room, rate: FeeRate): real { Pot(room) * rate }

  /** The recorded prize: the pot less the fee, or the whole pot on a tie. */
  function Prize(room: Room, winner: Option<UserId>, rate: FeeRate): real
  {
    if winner.Some? then Pot(room) - Fee(room, rate) else Pot(room)
  }

  /** The room columns `start_game` writes. */
  function ResultPatch(room: Room, d1: Die, d2: Die, now: Timestamp, rate: FeeRate): RoomPatch
  {
    var winner := WinnerOf(room, d1, d2);
    NoChange.(
      player1Dice := Some(d1),
      player2Dice := Some(SecondRoll(room, d2)),
      winnerId := Some(winner),
      prizeAmount := Some(Prize(room, winner, rate)),
      status := Some(Finished),
      finishedAt := Some(now))
  }

  /** `GameManager.update_user_stats`: a win adds one to the wins, a loss to
      the losses, and either adds `amount` to the total staked. A user id
      that matches no row (including Python's None) changes nothing. */
  function UpdateUserStats(db: Db, userId: Option<UserId>, win: bool, amount: real): (r: Db)
    ensures r.users.Keys == db.users.Keys
    ensures userId.Some? && userId.value in db.users ==>
      var u := db.users[userId.value];
      r.users[userId.value] == if win then u.(totalWins := u.totalWins + 1, totalBet := u.totalBet + amount)
                               else u.(totalLosses := u.totalLosses + 1, totalBet := u.totalBet + amount)
    ensures forall u :: u in db.users && Some(u) != userId ==> r.users[u] == db.users[u]
    ensures r.users == Recorded(db.users, userId, win, amount)
    ensures r.rooms == db.rooms && r.txns == db.txns && r.media == db.media
  {
    db.(users := Recorded(db.users, userId, win, amount))
  }

  /** The accounts after one game of `userId` is recorded. */
  function Recorded(users: map<UserId, User>, userId: Option<UserId>, win: bool, amount: real): (r: map<UserId, User>)
    ensures r.Keys == users.Keys
  {
    if userId.Some? && userId.value in users then
      var u := users[userId.value];
      users[userId.value := if win then u.(totalWins := u.totalWins + 1, totalBet := u.totalBet + amount)
                            else u.(totalLosses := u.totalLosses + 1, totalBet := u.totalBet + amount)]
    else users
  }

  /** One account after a decisive game: the winner is credited the prize
      and gains a win and the pot as stake; the loser gains a loss and the
      bet as stake; anyone else is left as they were. */
  function Settled(id: UserId, u: User, winner: UserId, loser: Option<UserId>, prize: real, pot: real, bet: real): User
  {
    var isW := id == winner;
    var isL := Some(id) == loser;
    u.(balance := u.balance + (if isW then prize else 0.0),
       totalWins := u.totalWins + (if isW then 1 else 0),
       totalLosses := u.totalLosses + (if isL then 1 else 0),
       totalBet := u.totalBet + (if isW then pot else 0.0) + (if isL then bet else 0.0))
  }

  /** The accounts after a decisive game: the prize credited to the winner,
      then the winner's and the loser's statistics. */
  function PaidAccounts(users: map<UserId, User>, winner: UserId, loser: Option<UserId>, prize: real, bet: real): (r: map<UserId, User>)
    ensures r.Keys == users.Keys
  {
    Recorded(Recorded(Credited(users, winner, prize), Some(winner), true, bet * 2.0), loser, false, bet)
  }

  /** Every account comes out of a decisive game settled as the winner,
      the loser or a bystander, and no account is added or lost. */
  lemma PaidAccountsSettle(users: map<UserId, User>, winner: UserId, loser: Option<UserId>, prize: real, bet: real, u: UserId)
    requires u in users
    ensures PaidAccounts(users, winner, loser, prize, bet)[u] == Settled(u, users[u], winner, loser, prize, bet * 2.0, bet)
  {
    var x2 := Credited(users, winner, prize);
    var x4 := Recorded(x2, Some(winner), true, bet * 2.0);
    assert x2[u] == if u == winner then users[u].(balance := users[u].balance + prize) else users[u];
    assert x4[u] == if u == winner then x2[u].(totalWins := x2[u].totalWins + 1, totalBet := x2[u].totalBet + bet * 2.0) else x2[u];
  }

  /** The ledger and account writes of a decisive game, in the source's
      order: the prize row, the prize credited, the fee row, then the
      winner's and the loser's statistics. */
  function PayOut(db: Db, roomId: RoomId, bet: real, winner: UserId, loser: Option<UserId>, prize: real, fee: real): (r: Db)
    ensures r.txns == db.txns + [Txn(winner, prize, Win, Some(roomId), WinDescription),
                                 Txn(ProjectAccount, fee, ProjectFee, Some(roomId), FeeDescription)]
    ensures r.users == PaidAccounts(db.users, winner, loser, prize, bet)
    ensures r.rooms == db.rooms && r.media == db.media
  {
    var db1 := AddTransaction(db, winner, prize, Win, Some(roomId), WinDescription);
    var db2 := UpdateUserBalance(db1, winner, prize);
    var db3 := AddTransaction(db2, ProjectAccount, fee, ProjectFee, Some(roomId), FeeDescription);
    var db4 := UpdateUserStats(db3, Some(winner), true, bet * 2.0);
    var r := UpdateUserStats(db4, loser, false, bet);
    assert db3.txns == db.txns + [Txn(winner, prize, Win, Some(roomId), WinDescription),
                                  Txn(ProjectAccount, fee, ProjectFee, Some(roomId), FeeDescription)];
    r
  }

  /** `GameManager.start_game` with the two dice supplied. The room is
      finished with the rolls, the winner (None on a tie) and the prize. A
      decisive game appends exactly a 'win' row of the prize to the winner
      and a 'project_fee' row of the fee to account 0, credits the prize to
      the winner, and updates both players' statistics; a tie writes no row
      and touches no account. Nothing guards against a room that is already
      finished. */
  function StartGame(db: Db, roomId: RoomId, d1: Die, d2: Die, now: Timestamp, rate: FeeRate): (r: Db)
    requires 1 <= roomId <= |db.rooms|
    ensures |r.rooms| == |db.rooms|
    ensures forall k :: 0 <= k < |db.rooms| && k != roomId - 1 ==> r.rooms[k] == db.rooms[k]
    ensures r.rooms[roomId - 1] == ApplyPatch(db.rooms[roomId - 1], ResultPatch(db.rooms[roomId - 1], d1, d2, now, rate))
    ensures r.media == db.media && r.users.Keys == db.users.Keys
    ensures WinnerOf(db.rooms[roomId - 1], d1, d2).None? ==> r.users == db.users && r.txns == db.txns
    ensures var room := db.rooms[roomId - 1];
            var w := WinnerOf(room, d1, d2);
            w.Some? ==>
              && r.txns == db.txns + [Txn(w.value, Pot(room) - Fee(room, rate), Win, Some(roomId), WinDescription),
                                      Txn(ProjectAccount, Fee(room, rate), ProjectFee, Some(roomId), FeeDescription)]
              && r.users == PaidAccounts(db.users, w.value, LoserOf(room, d1, d2), Pot(room) - Fee(room, rate), room.betAmount)
  {
    var room := db.rooms[roomId - 1];
    var winner := WinnerOf(room, d1, d2);
    var db1 := UpdateRoom(db, roomId, ResultPatch(room, d1, d2, now, rate));
    if winner.None? then db1
    else PayOut(db1, roomId, room.betAmount, winner.value, LoserOf(room, d1, d2), Pot(room) - Fee(room, rate), Fee(room, rate))
  }

  /** What a finished room records: player 1's roll is a die, player 2's is a
      die when there is a player 2 and 0 otherwise; a lone player 1 always
      wins; with two players the higher roll wins and equal rolls are a tie;
      the prize is the pot less the fee, or the whole pot on a tie; every
      column other than the rolls, winner, prize, status and finish time is
      kept. */
  lemma SettlementDice(db: Db, roomId: RoomId, d1: Die, d2: Die, now: Timestamp, rate: FeeRate)
    requires 1 <= roomId <= |db.rooms|
    ensures var room := db.rooms[roomId - 1];
            var after := StartGame(db, roomId, d1, d2, now, rate).rooms[roomId - 1];
            && after.status == Finished && after.finishedAt == Some(now)
            && after.player1Dice.Some? && 1 <= after.player1Dice.value <= 6
            && after.player2Dice.Some?
            && (room.player2Id.Some? ==> 1 <= after.player2Dice.value <= 6)
            && (room.player2Id.None? ==> after.player2Dice.value == 0 && after.winnerId == Some(room.player1Id))
            && (room.player2Id.Some? ==>
                 && (after.winnerId.None? <==> after.player1Dice == after.player2Dice)
                 && (after.player1Dice.value > after.player2Dice.value ==> after.winnerId == Some(room.player1Id))
                 && (after.player2Dice.value > after.player1Dice.value ==> after.winnerId == room.player2Id))
            && after.prizeAmount == Some(if after.winnerId.Some? then Pot(room) - Fee(room, rate) else Pot(room))
            && after == room.(status := Finished, finishedAt := Some(now), player1Dice := after.player1Dice,
                              player2Dice := after.player2Dice, winnerId := after.winnerId, prizeAmount := after.prizeAmount)
  {
  }

  /** The account effects of a decisive game between two distinct players:
      the winner's balance rises by the prize and the winner gains a win and
      twice the bet staked; the loser (if present) gains a loss and the bet
      staked; every other account, the platform's included, is unchanged.
      These are the accounts `StartGame` leaves after a decisive game. */
  lemma SettlementAccounts(users: map<UserId, User>, w: UserId, l: Option<UserId>, prize: real, bet: real)
    requires l != Some(w)
    ensures var r := PaidAccounts(users, w, l, prize, bet);
            && (w in users ==>
                 r[w] == users[w].(balance := users[w].balance + prize, totalWins := users[w].totalWins + 1,
                                   totalBet := users[w].totalBet + bet * 2.0))
            && (l.Some? && l.value in users ==>
                 r[l.value] == users[l.value].(totalLosses := users[l.value].totalLosses + 1,
                                               totalBet := users[l.value].totalBet + bet))
            && (forall u :: u in users && u != w && Some(u) != l ==> r[u] == users[u])
  {
    forall u | u in users
      ensures PaidAccounts(users, w, l, prize, bet)[u] == Settled(u, users[u], w, l, prize, bet * 2.0, bet)
    {
      PaidAccountsSettle(users, w, l, prize, bet, u);
    }
  }

  /** No money leaks on a decisive game: the prize and the fee add up to the
      pot, with the prize positive and the fee non-negative for a positive
      bet. A tie records the whole pot as the prize. */
  lemma SettlementMoney(db: Db, roomId: RoomId, d1: Die, d2: Die, now: Timestamp, rate: FeeRate)
    requires 1 <= roomId <= |db.rooms|
    ensures var room := db.rooms[roomId - 1];
            var after := StartGame(db, roomId, d1, d2, now, rate).rooms[roomId - 1];
            && (after.winnerId.Some? ==> after.prizeAmount.value + Fee(room, rate) == 2.0 * room.betAmount)
            && (after.winnerId.Some? && room.betAmount > 0.0 ==>
                 0.0 < after.prizeAmount.value <= 2.0 * room.betAmount && 0.0 <= Fee(room, rate) < 2.0 * room.betAmount)
            && (after.winnerId.None? ==> after.prizeAmount == Some(2.0 * room.betAmount))
  {
    var room := db.rooms[roomId - 1];
    var after := StartGame(db, roomId, d1, d2, now, rate).rooms[roomId - 1];
    var w := WinnerOf(room, d1, d2);
    assert after.winnerId == w && after.prizeAmount == Some(Prize(room, w, rate));
    PrizeSplitsPot(room, w, rate);
  }

  /** The prize and the fee split the pot. */
  lemma PrizeSplitsPot(room: Room, winner: Option<UserId>, rate: FeeRate)
    ensures winner.Some? ==> Prize(room, winner, rate) + Fee(room, rate) == 2.0 * room.betAmount
    ensures winner.Some? && room.betAmount > 0.0 ==>
      0.0 < Prize(room, winner, rate) <= 2.0 * room.betAmount && 0.0 <= Fee(room, rate) < 2.0 * room.betAmount
    ensures winner.None? ==> Prize(room, winner, rate) == 2.0 * room.betAmount
  {
    var bet := room.betAmount;
    var pot := Pot(room);
    var fee := Fee(room, rate);
    assert pot == 2.0 * bet && fee == pot * rate;
    ShareOfPot(pot, rate, fee);
    if winner.Some? {
      assert Prize(room, winner, rate) == pot - fee;
    }
  }

  /** A share below one of a pot, and the rest of it, add up to the pot and
      are both within it. */
  lemma ShareOfPot(pot: real, rate: FeeRate, fee: real)
    requires fee == pot * rate
    ensures (pot - fee) + fee == pot
    ensures pot > 0.0 ==> 0.0 <= fee < pot && 0.0 < pot - fee <= pot
  {
    if pot > 0.0 {
      assert pot * (1.0 - rate) > 0.0;
      assert pot - fee == pot * (1.0 - rate);
    }
  }

  /** A decisive game raises the platform income in the statistics by the
      fee; a tie leaves it. */
  lemma SettlementIncome(db: Db, roomId: RoomId, d1: Die, d2: Die, now: Timestamp, rate: FeeRate)
    requires 1 <= roomId <= |db.rooms|
    ensures var room := db.rooms[roomId - 1];
            GetBotStats(StartGame(db, roomId, d1, d2, now, rate)).projectIncome
              == GetBotStats(db).projectIncome + (if WinnerOf(room, d1, d2).Some? then Fee(room, rate) else 0.0)
  {
    var room := db.rooms[roomId - 1];
    var txns := StartGame(db, roomId, d1, d2, now, rate).txns;
    if WinnerOf(room, d1, d2).Some? {
      var t1 := Txn(WinnerOf(room, d1, d2).value, Pot(room) - Fee(room, rate), Win, Some(roomId), WinDescription);
      var t2 := Txn(ProjectAccount, Fee(room, rate), ProjectFee, Some(roomId), FeeDescription);
      assert txns == db.txns + [t1] + [t2];
      IncomeAppend(db.txns + [t1], t2);
      IncomeAppend(db.txns, t1);
    }
  }

  /** Appending one row changes the platform income by that row alone. */
  lemma IncomeAppend(txns: seq<Txn>, t: Txn)
    ensures SumOfKind(txns + [t], ProjectFee) == SumOfKind(txns, ProjectFee) + (if t.kind == ProjectFee then t.amount else 0.0)
  {
    assert (txns + [t])[..|txns|] == txns;
  }

  /** Settling counts as one more finished game unless the room was already
      finished, in which case the count stays (the source settles it again
      all the same). */
  lemma SettlementGameCount(db: Db, roomId: RoomId, d1: Die, d2: Die, now: Timestamp, rate: FeeRate)
    requires 1 <= roomId <= |db.rooms|
    ensures GetBotStats(StartGame(db, roomId, d1, d2, now, rate)).totalGames
         == GetBotStats(db).totalGames + (if db.rooms[roomId - 1].status == Finished then 0 else 1)
  {
    var r := StartGame(db, roomId, d1, d2, now, rate);
    assert r.rooms == db.rooms[roomId - 1 := r.rooms[roomId - 1]];
    FinishedCountUpdate(db.rooms, roomId - 1, r.rooms[roomId - 1]);
  }
  /** Settling a room that was not finished adds its bet to the total of
      finished bets; settling a finished one again leaves the total. */
  lemma SettlementBetTotal(db: Db, roomId: RoomId, d1: Die, d2: Die, now: Timestamp, rate: FeeRate)
    requires 1 <= roomId <= |db.rooms|
    ensures GetBotStats(StartGame(db, roomId, d1, d2, now, rate)).totalBets
         == GetBotStats(db).totalBets + (if db.rooms[roomId - 1].status == Finished then 0.0 else db.rooms[roomId - 1].betAmount)
  {
    var k := roomId - 1;
    var rooms := StartGame(db, roomId, d1, d2, now, rate).rooms;
    assert rooms == db.rooms[k := rooms[k]];
    SettlementDice(db, roomId, d1, d2, now, rate);
    FinishedBetsUpdate(db.rooms, k, rooms[k]);
  }



  // ------------------------------------------------------------- ledger

  /** The sum of the ledger rows of one account. */
  function LedgerSum(txns: seq<Txn>, user: UserId): real
    decreases |txns|
  {
    if |txns| == 0 then 0.0
    else
      var last := txns[|txns| - 1];
      LedgerSum(txns[..|txns| - 1], user) + (if last.userId == user then last.amount else 0.0)
  }

  /** Every player's balance equals the sum of their ledger rows. The
      platform account is left out: its fee rows are never credited to any
      balance. */
  ghost predicate Reconciled(db: Db) {
    forall u :: u in db.users && u != ProjectAccount ==> db.users[u].balance == LedgerSum(db.txns, u)
  }

  /** Settlement keeps players' balances in line with the ledger: the only
      balance it moves is the winner's, by exactly the amount of the one row
      it writes for them. */
  lemma SettlementReconciles(db: Db, roomId: RoomId, d1: Die, d2: Die, now: Timestamp, rate: FeeRate)
    requires 1 <= roomId <= |db.rooms|
    requires db.rooms[roomId - 1].player2Id != Some(db.rooms[roomId - 1].player1Id)
    requires WinnerOf(db.rooms[roomId - 1], d1, d2) != Some(ProjectAccount)
    requires Reconciled(db)
    ensures Reconciled(StartGame(db, roomId, d1, d2, now, rate))
  {
    var room := db.rooms[roomId - 1];
    var r := StartGame(db, roomId, d1, d2, now, rate);
    if WinnerOf(room, d1, d2).Some? {
      var w := WinnerOf(room, d1, d2).value;
      var prize := Pot(room) - Fee(room, rate);
      assert r.users == PaidAccounts(db.users, w, LoserOf(room, d1, d2), prize, room.betAmount);
      assert r.txns == db.txns + [Txn(w, prize, Win, Some(roomId), WinDescription),
                                  Txn(ProjectAccount, Fee(room, rate), ProjectFee, Some(roomId), FeeDescription)];
      PayOutReconciles(db.users, db.txns, w, LoserOf(room, d1, d2), prize, room.betAmount,
                       Txn(w, prize, Win, Some(roomId), WinDescription),
                       Txn(ProjectAccount, Fee(room, rate), ProjectFee, Some(roomId), FeeDescription));
    }
  }

  /** Paying the prize row to the winner and the fee row to the platform
      keeps every player's balance equal to their ledger sum. */
  lemma PayOutReconciles(users: map<UserId, User>, txns: seq<Txn>, w: UserId, l: Option<UserId>, prize: real, bet: real, t1: Txn, t2: Txn)
    requires l != Some(w) && w != ProjectAccount
    requires t1.userId == w && t1.amount == prize && t2.userId == ProjectAccount
    requires forall u :: u in users && u != ProjectAccount ==> users[u].balance == LedgerSum(txns, u)
    ensures var after := PaidAccounts(users, w, l, prize, bet);
            forall u :: u in after && u != ProjectAccount ==> after[u].balance == LedgerSum(txns + [t1, t2], u)
  {
    var after := PaidAccounts(users, w, l, prize, bet);
    SettlementAccounts(users, w, l, prize, bet);
    assert (txns + [t1, t2])[..|txns| + 1] == txns + [t1];
    assert (txns + [t1])[..|txns|] == txns;
    forall u | u in after && u != ProjectAccount
      ensures after[u].balance == LedgerSum(txns + [t1, t2], u)
    {
      assert LedgerSum(txns + [t1, t2], u) == LedgerSum(txns, u) + (if u == w then prize else 0.0);
    }
  }

  // ------------------------------------------------------------ payments

  /** The gateway reports the invoice, if there is one, as paid. */
  predicate ReportsPaid(lookup: InvoiceLookup, invoice: Option<InvoiceId>)
  {
    invoice.Some? && lookup(invoice.value) == Some(Paid)
  }

  /** Player 1 counts as paid after a check. */
  predicate Paid1After(room: Room, lookup: InvoiceLookup)
  {
    room.player1Paid || ReportsPaid(lookup, room.invoiceId)
  }

  /** Player 2 counts as paid after a check; an invoice is consulted only
      when there is a player 2. */
  predicate Paid2After(room: Room, lookup: InvoiceLookup)
  {
    room.player2Paid || (room.player2Id.Some? && ReportsPaid(lookup, room.invoiceId2))
  }

  /** `GameManager.check_payment` with the gateway's answers and the dice the
      settlement would roll supplied. Each unpaid flag is set when the
      gateway reports its invoice paid; then the room is re-read and settled
      when player 1 has paid and player 2 has paid or does not exist. There
      is no status check: a creator-only room settles as soon as player 1
      pays, and a finished room settles again. */
  function CheckPayment(db: Db, roomId: RoomId, lookup: InvoiceLookup, d1: Die, d2: Die, now: Timestamp, rate: FeeRate): (s: Step<()>)
    ensures GetRoom(db, roomId).None? ==> s == Step(db, Err(RoomNotFound))
    ensures s.result.Err? ==> s.result.reason in {RoomNotFound, AwaitingPayment}
    ensures GetRoom(db, roomId).Some? ==>
      var room := db.rooms[roomId - 1];
      var marked := room.(player1Paid := Paid1After(room, lookup), player2Paid := Paid2After(room, lookup));
      var flagged := db.(rooms := db.rooms[roomId - 1 := marked]);
      && (s.result.Ok? <==> Paid1After(room, lookup) && (Paid2After(room, lookup) || room.player2Id.None?))
      && (s.result.Ok? ==> s.db == StartGame(flagged, roomId, d1, d2, now, rate))
      && (s.result.Err? ==> s.db == flagged)
  {
    match GetRoom(db, roomId)
    case None => Step(db, Err(RoomNotFound))
    case Some(room) =>
      var db1 := if !room.player1Paid && ReportsPaid(lookup, room.invoiceId)
                 then UpdateRoom(db, roomId, NoChange.(player1Paid := Some(true))) else db;
      var db2 := if !room.player2Paid && room.player2Id.Some? && ReportsPaid(lookup, room.invoiceId2)
                 then UpdateRoom(db1, roomId, NoChange.(player2Paid := Some(true))) else db1;
      var reread := db2.rooms[roomId - 1];
      assert db2 == db.(rooms := db.rooms[roomId - 1 := room.(player1Paid := Paid1After(room, lookup), player2Paid := Paid2After(room, lookup))]);
      if reread.player1Paid && (reread.player2Paid || reread.player2Id.None?) then
        Step(StartGame(db2, roomId, d1, d2, now, rate), Ok(()))
      else Step(db2, Err(AwaitingPayment))
  }

  /** What a check does to the rooms: only the checked room changes; its
      flags become the flags after the check, seat 2 stays as it was, and
      it is finished when the check succeeded and keeps its status when not. */
  lemma CheckPaymentRoom(db: Db, roomId: RoomId, lookup: InvoiceLookup, d1: Die, d2: Die, now: Timestamp, rate: FeeRate)
    requires 1 <= roomId <= |db.rooms|
    ensures var s := CheckPayment(db, roomId, lookup, d1, d2, now, rate);
            && |s.db.rooms| == |db.rooms|
            && (forall k :: 0 <= k < |db.rooms| && k != roomId - 1 ==> s.db.rooms[k] == db.rooms[k])
            && s.db.rooms[roomId - 1].player1Paid == Paid1After(db.rooms[roomId - 1], lookup)
            && s.db.rooms[roomId - 1].player2Paid == Paid2After(db.rooms[roomId - 1], lookup)
            && s.db.rooms[roomId - 1].player2Id == db.rooms[roomId - 1].player2Id
            && s.db.rooms[roomId - 1].status == (if s.result.Ok? then Finished else db.rooms[roomId - 1].status)
  {
    var room := db.rooms[roomId - 1];
    var marked := room.(player1Paid := Paid1After(room, lookup), player2Paid := Paid2After(room, lookup));
    var flagged := db.(rooms := db.rooms[roomId - 1 := marked]);
    assert flagged.rooms[roomId - 1] == marked;
    var s := CheckPayment(db, roomId, lookup, d1, d2, now, rate);
    if s.result.Ok? {
      var r := StartGame(flagged, roomId, d1, d2, now, rate);
      assert r.rooms[roomId - 1] == ApplyPatch(marked, ResultPatch(marked, d1, d2, now, rate));
    }
  }

  /** Paid flags are monotone: a check never clears a flag of any room, and
      it sets the flag of the checked room only when the gateway reported the
      matching invoice paid. */
  lemma PaidFlagsMonotone(db: Db, roomId: RoomId, lookup: InvoiceLookup, d1: Die, d2: Die, now: Timestamp, rate: FeeRate)
    ensures var s := CheckPayment(db, roomId, lookup, d1, d2, now, rate);
            && |s.db.rooms| == |db.rooms|
            && (forall k :: 0 <= k < |db.rooms| && db.rooms[k].player1Paid ==> s.db.rooms[k].player1Paid)
            && (forall k :: 0 <= k < |db.rooms| && db.rooms[k].player2Paid ==> s.db.rooms[k].player2Paid)
            && (forall k :: 0 <= k < |db.rooms| && k != roomId - 1 && !db.rooms[k].player1Paid ==> !s.db.rooms[k].player1Paid)
            && (GetRoom(db, roomId).Some? && !db.rooms[roomId - 1].player1Paid && s.db.rooms[roomId - 1].player1Paid ==>
                 ReportsPaid(lookup, db.rooms[roomId - 1].invoiceId))
            && (GetRoom(db, roomId).Some? && !db.rooms[roomId - 1].player2Paid && s.db.rooms[roomId - 1].player2Paid ==>
                 db.rooms[roomId - 1].player2Id.Some? && ReportsPaid(lookup, db.rooms[roomId - 1].invoiceId2))
  {
    if GetRoom(db, roomId).Some? {
      CheckPaymentRoom(db, roomId, lookup, d1, d2, now, rate);
    }
  }

  /** A room with nobody in seat 2 settles on the first check after player
      1's invoice is reported paid, and player 1 wins the doubled pot less
      the fee although only one stake was paid. */
  lemma LoneCreatorSettles(db: Db, roomId: RoomId, lookup: InvoiceLookup, d1: Die, d2: Die, now: Timestamp, rate: FeeRate)
    requires 1 <= roomId <= |db.rooms|
    requires db.rooms[roomId - 1].player2Id.None?
    requires ReportsPaid(lookup, db.rooms[roomId - 1].invoiceId)
    ensures var room := db.rooms[roomId - 1];
            var s := CheckPayment(db, roomId, lookup, d1, d2, now, rate);
            && s.result.Ok?
            && s.db.rooms[roomId - 1].winnerId == Some(room.player1Id)
            && s.db.txns == db.txns + [Txn(room.player1Id, Pot(room) - Fee(room, rate), Win, Some(roomId), WinDescription),
                                       Txn(ProjectAccount, Fee(room, rate), ProjectFee, Some(roomId), FeeDescription)]
            && Pot(room) == 2.0 * room.betAmount
  {
    var room := db.rooms[roomId - 1];
    var marked := room.(player1Paid := Paid1After(room, lookup), player2Paid := Paid2After(room, lookup));
    var flagged := db.(rooms := db.rooms[roomId - 1 := marked]);
    assert flagged.rooms[roomId - 1] == marked;
    assert WinnerOf(marked, d1, d2) == Some(room.player1Id);
    assert Pot(marked) == Pot(room) && Fee(marked, rate) == Fee(room, rate);
  }

  /** A finished room whose flags are set is settled again by the next
      check: new dice, and on a decisive roll two more ledger rows. */
  lemma FinishedRoomSettlesAgain(db: Db, roomId: RoomId, lookup: InvoiceLookup, d1: Die, d2: Die, now: Timestamp, rate: FeeRate)
    requires 1 <= roomId <= |db.rooms|
    requires db.rooms[roomId - 1].status == Finished
    requires db.rooms[roomId - 1].player1Paid
    requires db.rooms[roomId - 1].player2Paid || db.rooms[roomId - 1].player2Id.None?
    ensures var s := CheckPayment(db, roomId, lookup, d1, d2, now, rate);
            && s.result.Ok?
            && s.db.rooms[roomId - 1].player1Dice == Some(d1)
            && (WinnerOf(db.rooms[roomId - 1], d1, d2).Some? ==> |s.db.txns| == |db.txns| + 2)
  {
    var room := db.rooms[roomId - 1];
    var marked := room.(player1Paid := Paid1After(room, lookup), player2Paid := Paid2After(room, lookup));
    assert marked == room;
    assert db.rooms[roomId - 1 := marked] == db.rooms;
  }

  /** The check as evidently intended, with the guard on the room's status
      that `check_payment` lacks: a finished room is refused as closed and
      the store is left alone; any other room is checked as written. */
  function CheckPaymentOnce(db: Db, roomId: RoomId, lookup: InvoiceLookup, d1: Die, d2: Die, now: Timestamp, rate: FeeRate): (s: Step<()>)
    ensures 1 <= roomId <= |db.rooms| && db.rooms[roomId - 1].status == Finished ==> s == Step(db, Err(RoomNotOpen))
    ensures !(1 <= roomId <= |db.rooms| && db.rooms[roomId - 1].status == Finished) ==>
      s == CheckPayment(db, roomId, lookup, d1, d2, now, rate)
  {
    match GetRoom(db, roomId)
    case Some(room) =>
      if room.status == Finished then Step(db, Err(RoomNotOpen))
      else CheckPayment(db, roomId, lookup, d1, d2, now, rate)
    case None => CheckPayment(db, roomId, lookup, d1, d2, now, rate)
  }

  /** With the guard, a room settles at most once: after a successful check,
      every later check of the same room, whatever the gateway, the dice
      and the clock, fails and changes nothing. */
  lemma SettlesOnce(db: Db, roomId: RoomId, lookup: InvoiceLookup, d1: Die, d2: Die, now: Timestamp, rate: FeeRate,
                    lookup': InvoiceLookup, d1': Die, d2': Die, now': Timestamp)
    requires CheckPaymentOnce(db, roomId, lookup, d1, d2, now, rate).result.Ok?
    ensures var after := CheckPaymentOnce(db, roomId, lookup, d1, d2, now, rate).db;
            CheckPaymentOnce(after, roomId, lookup', d1', d2', now', rate) == Step(after, Err(RoomNotOpen))
  {
    CheckPaymentRoom(db, roomId, lookup, d1, d2, now, rate);
  }

  // ------------------------------------------------------------ listing

  /** A room opened by a successful create is offered in the active list. */
  lemma CreatedRoomIsListed(db: Db, userId: UserId, bet: real, now: Timestamp, invoice: Option<Invoice>)
    requires CreateRoom(db, userId, bet, now, invoice).result.Ok?
    ensures var s := CreateRoom(db, userId, bet, now, invoice);
            exists x :: x in GetActiveRooms(s.db) && x.id == s.result.value.roomId && x.creatorId == userId
  {
    var s := CreateRoom(db, userId, bet, now, invoice);
    var x := s.db.rooms[|db.rooms|];
    assert x in s.db.rooms;
  }

  /** A room that has been joined is no longer offered in the active list. */
  lemma JoinedRoomIsUnlisted(db: Db, userId: UserId, roomId: RoomId, invoice: Option<Invoice>)
    requires RoomIdsMatch(db)
    requires JoinRoom(db, userId, roomId, invoice).result.Ok?
    ensures forall x :: x in GetActiveRooms(JoinRoom(db, userId, roomId, invoice).db) ==> x.id != roomId
  {
    var s := JoinRoom(db, userId, roomId, invoice);
    forall x | x in GetActiveRooms(s.db)
      ensures x.id != roomId
    {
      var k :| 0 <= k < |s.db.rooms| && s.db.rooms[k] == x;
      assert s.db.rooms[k].id == k + 1;
    }
  }

  /** Joining never looks at the joiner's account: the outcome is the same
      whatever the user table holds, banned users included. */
  lemma JoinIgnoresAccounts(db: Db, users: map<UserId, User>, userId: UserId, roomId: RoomId, invoice: Option<Invoice>)
    ensures JoinRoom(db.(users := users), userId, roomId, invoice).result == JoinRoom(db, userId, roomId, invoice).result
  {
  }
}

=== FILE: keyboards.dfy ===
/** The inline keyboards of keyboards.py: the callback data each button
    carries, and how the buttons are chunked into rows. */
module Keyboards {
  import opened Base
  import opened Text

  /** What a button shows. A room button interpolates a float amount whose
      decimal rendering is not part of this model, so its text is kept as
      the three parts it is made of. */
  datatype Label =
    | Caption(text: string)
    | RoomCaption(creatorTag: string, bet: real, players: nat)

  datatype Button = Button(title: Label, callback: string)

  /** A keyboard is its rows of buttons, top to bottom. */
  type Keyboard = seq<seq<Button>>

  // ------------------------------------------------------ callback data

  /** Callback data: a tag, the separator, and the payload. */
  function Tagged(tag: string, payload: string): string { tag + [Sep] + payload }

  function BetCallback(bet: nat): string { Tagged("bet", NatToString(bet)) }

  function JoinCallback(id: RoomId): string { Tagged("join", NatToString(id)) }

  function BanCallback(username: string): string { Tagged("ban", username) }

  function UnbanCallback(username: string): string { Tagged("unban", username) }

  function StatsCallback(username: string): string { Tagged("stats", username) }

  function MediaCallback(section: string): string { Tagged("media", section) }

  const BackToAdmin: string := "back_to_admin"

  // ------------------------------------------------------------- chunking

  /** All rows one after another. */
  function Flatten<T>(rows: seq<seq<T>>): seq<T>
    decreases |rows|
  {
    if |rows| == 0 then [] else rows[0] + Flatten(rows[1..])
  }

  /** The reference chunking: consecutive slices of `width` items, the last
      one shorter when the items do not divide evenly. */
  function Chunks<T>(items: seq<T>, width: nat): seq<seq<T>>
    requires width > 0
    decreases |items|
  {
    if |items| == 0 then []
    else if |items| <= width then [items]
    else [items[..width]] + Chunks(items[width..], width)
  }

  /** The chunks give the items back in order, no row is empty, every row
      holds at most `width` items, and all but the last exactly `width`. */
  lemma {:induction false} ChunksShape<T>(items: seq<T>, width: nat)
    requires width > 0
    ensures Flatten(Chunks(items, width)) == items
    ensures forall k :: 0 <= k < |Chunks(items, width)| ==> 0 < |Chunks(items, width)[k]| <= width
    ensures forall k :: 0 <= k < |Chunks(items, width)| - 1 ==> |Chunks(items, width)[k]| == width
    decreases |items|
  {
    var rows := Chunks(items, width);
    if |items| == 0 {
    } else if |items| <= width {
      assert Flatten(rows) == items + Flatten(rows[1..]);
    } else {
      var rest := Chunks(items[width..], width);
      ChunksShape(items[width..], width);
      assert rows == [items[..width]] + rest;
      assert rows[1..] == rest;
      assert items == items[..width] + items[width..];
      forall k | 1 <= k < |rows|
        ensures rows[k] == rest[k - 1]
      {
      }
    }
  }

  /** The loop of `bet_keyboard` and `media_sections_keyboard`: a button
      goes into the current row, a row that reaches `width` is emitted, and
      a non-empty remainder becomes the last row. */
  method ChunkRows<T>(items: seq<T>, width: nat) returns (rows: seq<seq<T>>)
    requires width > 0
    ensures rows == Chunks(items, width)
    ensures Flatten(rows) == items
    ensures forall k :: 0 <= k < |rows| ==> 0 < |rows[k]| <= width
    ensures forall k :: 0 <= k < |rows| - 1 ==> |rows[k]| == width
  {
    rows := [];
    var row: seq<T> := [];
    var start, i := 0, 0;
    while i < |items|
      invariant 0 <= start <= i <= |items|
      invariant i - start < width
      invariant row == items[start..i]
      invariant Chunks(items, width) == rows + Chunks(items[start..], width)
      decreases |items| - i
    {
      assert items[start..i + 1] == items[start..i] + [items[i]];
      row := row + [items[i]];
      i := i + 1;
      if |row| == width {
        assert start + width == i;
        ChunkFullAt(items, start, width);
        var rest := Chunks(items[i..], width);
        assert Chunks(items[start..], width) == [row] + rest;
        assert rows + ([row] + rest) == (rows + [row]) + rest;
        rows := rows + [row];
        row := [];
        start := i;
      }
    }
    assert items[start..] == row;
    ChunksShape(items, width);
    if |row| > 0 {
      ChunkLast(row, width);
      rows := rows + [row];
    } else {
      assert rows + [] == rows;
    }
  }

  /** A full row is split off the front of the items from `start` on. */
  lemma ChunkFullAt<T>(items: seq<T>, start: nat, width: nat)
    requires 0 < width && start + width <= |items|
    ensures Chunks(items[start..], width) == [items[start..start + width]] + Chunks(items[start + width..], width)
  {
    var tail := items[start..];
    assert tail[..width] == items[start..start + width];
    assert tail[width..] == items[start + width..];
    ChunkFull(tail, width);
  }

  /** A full row is split off the front of the items. */
  lemma ChunkFull<T>(items: seq<T>, width: nat)
    requires 0 < width <= |items|
    ensures Chunks(items, width) == [items[..width]] + Chunks(items[width..], width)
  {
    if |items| == width {
      assert items[..width] == items;
      assert items[width..] == [];
    }
  }

  /** Items that fit in one row form that one row. */
  lemma ChunkLast<T>(items: seq<T>, width: nat)
    requires 0 < |items| <= width
    ensures Chunks(items, width) == [items]
  {
  }

  // ------------------------------------------------------------ keyboards

  /** The bet presets offered when a room is created. */
  const BetPresets: seq<nat> := [1, 2, 5, 10, 20, 50, 100]

  function BetButton(bet: nat): Button
  {
    Button(Caption(NatToString(bet) + " USD"), BetCallback(bet))
  }

  function BetButtons(bets: seq<nat>): (r: seq<Button>)
    ensures |r| == |bets|
    ensures forall k :: 0 <= k < |bets| ==> r[k] == BetButton(bets[k])
  {
    seq(|bets|, k requires 0 <= k < |bets| => BetButton(bets[k]))
  }

  /** `bet_keyboard`: the seven presets in rows of three (3, 3, 1), in
      order, each button carrying `"bet_" + str(bet)`. */
  method BetKeyboard() returns (kb: Keyboard)
    ensures Flatten(kb) == BetButtons(BetPresets)
    ensures |kb| == 3 && |kb[0]| == 3 && |kb[1]| == 3 && |kb[2]| == 1
    ensures forall k :: 0 <= k < |kb| ==> 0 < |kb[k]| <= 3
  {
    var buttons := BetButtons(BetPresets);
    kb := ChunkRows(buttons, 3);
    ChunkFull(buttons, 3);
    ChunkFull(buttons[3..], 3);
    assert buttons[3..][3..] == buttons[6..];
    assert |buttons[6..]| == 1;
  }

  /** One line of the room list as `show_rooms` builds it. */
  datatype RoomEntry = RoomEntry(id: RoomId, creatorId: UserId, creatorUsername: Option<string>, betAmount: real, playersCount: nat)

  /** How a room's creator is shown: `@username` when the username is
      non-empty, otherwise `ID: <creator id>`. */
  function CreatorTag(e: RoomEntry): (tag: string)
    ensures e.creatorUsername.Some? && e.creatorUsername.value != "" ==> tag == "@" + e.creatorUsername.value
    ensures (e.creatorUsername.None? || e.creatorUsername.value == "") ==> tag == "ID: " + NatToString(e.creatorId)
    ensures |tag| > 0 && (tag[0] == '@' <==> e.creatorUsername.Some? && e.creatorUsername.value != "")
  {
    match e.creatorUsername
    case Some(name) => if name != "" then "@" + name else "ID: " + NatToString(e.creatorId)
    case None => "ID: " + NatToString(e.creatorId)
  }

  function RoomButton(e: RoomEntry): Button
  {
    Button(RoomCaption(CreatorTag(e), e.betAmount, e.playersCount), JoinCallback(e.id))
  }

  /** `rooms_keyboard`: one row of one button per room, in the given order,
      whose callback names the room. */
  function RoomsKeyboard(entries: seq<RoomEntry>): (kb: Keyboard)
    ensures |kb| == |entries|
    ensures forall k :: 0 <= k < |kb| ==> |kb[k]| == 1 && kb[k][0].callback == JoinCallback(entries[k].id)
    ensures forall k :: 0 <= k < |kb| ==> kb[k][0].title.RoomCaption? && kb[k][0].title.creatorTag == CreatorTag(entries[k])
    ensures Flatten(kb) == seq(|entries|, k requires 0 <= k < |entries| => RoomButton(entries[k]))
    decreases |entries|
  {
    if |entries| == 0 then []
    else
      var rest := RoomsKeyboard(entries[1..]);
      var kb := [[RoomButton(entries[0])]] + rest;
      assert kb[1..] == rest;
      kb
  }

  /** `user_management_keyboard`: the unban button for a banned user or
      the ban button otherwise, then the stats button, one per row. */
  function UserManagementKeyboard(username: string, isBanned: bool): (kb: Keyboard)
    ensures |kb| == 2 && |kb[0]| == 1 && |kb[1]| == 1
    ensures kb[0][0].callback == (if isBanned then UnbanCallback(username) else BanCallback(username))
    ensures kb[1][0].callback == StatsCallback(username)
  {
    var toggle := if isBanned then Button(Caption("✅ Разбанить"), UnbanCallback(username))
                  else Button(Caption("❌ Забанить"), BanCallback(username));
    [[toggle], [Button(Caption("📊 Статистика"), StatsCallback(username))]]
  }

  /** The media sections an admin can fill, with their titles, in menu
      order. */
  const MediaSections: seq<(string, string)> := [
    ("main", "Главная"),
    ("create_room", "Создание комнаты"),
    ("rooms", "Список комнат"),
    ("balance", "Баланс"),
    ("stats", "Статистика"),
    ("win", "Победа"),
    ("lose", "Проигрыш")
  ]

  function SectionButtons(sections: seq<(string, string)>): (r: seq<Button>)
    ensures |r| == |sections|
    ensures forall k :: 0 <= k < |sections| ==> r[k] == Button(Caption(sections[k].1), MediaCallback(sections[k].0))
  {
    seq(|sections|, k requires 0 <= k < |sections| => Button(Caption(sections[k].1), MediaCallback(sections[k].0)))
  }

  /** `media_sections_keyboard`: the seven sections in rows of two
      (2, 2, 2, 1), in order, each carrying `"media_" + section`, and a
      last row holding only the back button. */
  method MediaSectionsKeyboard() returns (kb: Keyboard)
    ensures |kb| == 5
    ensures |kb[0]| == 2 && |kb[1]| == 2 && |kb[2]| == 2 && |kb[3]| == 1
    ensures Flatten(kb[..4]) == SectionButtons(MediaSections)
    ensures kb[4] == [Button(Caption("⬅️ Назад"), BackToAdmin)]
  {
    var buttons := SectionButtons(MediaSections);
    var rows := ChunkRows(buttons, 2);
    ChunkFull(buttons, 2);
    ChunkFull(buttons[2..], 2);
    ChunkFull(buttons[2..][2..], 2);
    assert buttons[2..][2..][2..] == buttons[6..];
    assert |buttons[6..]| == 1;
    kb := rows + [[Button(Caption("⬅️ Назад"), BackToAdmin)]];
    assert kb[..4] == rows;
  }
}

=== FILE: queries.dfy ===
/** The read queries of database.py: the list of open rooms, the aggregate
    statistics shown to the admin, and the media lookup by section. */
module Queries {
  import opened Base
  import opened Store

  // ------------------------------------------------------- active rooms

  /** The rooms whose status is 'waiting', in store order. */
  function WaitingRooms(rooms: seq<Room>): (r: seq<Room>)
    ensures forall x :: x in r <==> x in rooms && x.status == Waiting
    decreases |rooms|
  {
    if |rooms| == 0 then []
    else
      var front := WaitingRooms(rooms[..|rooms| - 1]);
      var last := rooms[|rooms| - 1];
      assert rooms == rooms[..|rooms| - 1] + [last];
      if last.status == Waiting then front + [last] else front
  }

  /** Later creation times come first. */
  predicate NewestFirst(rs: seq<Room>) {
    forall i, j :: 0 <= i < j < |rs| ==> rs[i].createdAt >= rs[j].createdAt
  }

  function InsertByAge(x: Room, rs: seq<Room>): (r: seq<Room>)
    requires NewestFirst(rs)
    ensures NewestFirst(r)
    ensures multiset(r) == multiset(rs) + multiset{x}
    ensures |r| > 0 && (r[0] == x || (|rs| > 0 && r[0] == rs[0]))
    decreases |rs|
  {
    if |rs| == 0 then [x]
    else if x.createdAt >= rs[0].createdAt then [x] + rs
    else
      var tail := InsertByAge(x, rs[1..]);
      assert rs == [rs[0]] + rs[1..];
      assert tail[0].createdAt <= rs[0].createdAt;
      [rs[0]] + tail
  }

  /** Insertion sort by creation time, newest first. */
  function SortNewestFirst(rs: seq<Room>): (r: seq<Room>)
    ensures NewestFirst(r)
    ensures multiset(r) == multiset(rs)
    decreases |rs|
  {
    if |rs| == 0 then []
    else
      assert rs == [rs[0]] + rs[1..];
      InsertByAge(rs[0], SortNewestFirst(rs[1..]))
  }

  /** `get_active_rooms`: every room whose status is 'waiting', each as often
      as it is stored, newest first (rooms created at the same instant come
      in an order SQL leaves open). */
  function GetActiveRooms(db: Db): (r: seq<Room>)
    ensures NewestFirst(r)
    ensures multiset(r) == multiset(WaitingRooms(db.rooms))
    ensures forall x :: x in r <==> x in db.rooms && x.status == Waiting
  {
    var r := SortNewestFirst(WaitingRooms(db.rooms));
    assert forall x :: x in r <==> x in multiset(r);
    r
  }

  // ------------------------------------------------------------- stats

  /** The figures `get_bot_stats` returns (the per-day `today_stats` row is
      not part of this model). */
  datatype BotStats = BotStats(
    totalUsers: nat,
    totalGames: nat,
    totalBets: real,
    projectIncome: real,
    totalDeposits: real,
    totalWithdrawals: real)

  /** `SELECT SUM(amount) … WHERE type = kind`, with SQL's NULL for no rows
      turned into 0 as the source's `or 0` does. */
  function SumOfKind(txns: seq<Txn>, kind: TxnKind): real
    decreases |txns|
  {
    if |txns| == 0 then 0.0
    else
      var last := txns[|txns| - 1];
      SumOfKind(txns[..|txns| - 1], kind) + (if last.kind == kind then last.amount else 0.0)
  }

  /** `COUNT(*) … WHERE status = 'finished'`. */
  function FinishedCount(rooms: seq<Room>): nat
    decreases |rooms|
  {
    if |rooms| == 0 then 0
    else FinishedCount(rooms[..|rooms| - 1]) + (if rooms[|rooms| - 1].status == Finished then 1 else 0)
  }

  /** `SUM(bet_amount) … WHERE status = 'finished'`, or 0. */
  function FinishedBets(rooms: seq<Room>): real
    decreases |rooms|
  {
    if |rooms| == 0 then 0.0
    else FinishedBets(rooms[..|rooms| - 1]) + (if rooms[|rooms| - 1].status == Finished then rooms[|rooms| - 1].betAmount else 0.0)
  }

  /** `get_bot_stats`. */
  function GetBotStats(db: Db): (r: BotStats)
    ensures r.totalUsers == |db.users|
    ensures r.totalGames <= |db.rooms|
    ensures |db.rooms| == 0 ==> r.totalGames == 0 && r.totalBets == 0.0
    ensures |db.txns| == 0 ==> r.projectIncome == 0.0 && r.totalDeposits == 0.0 && r.totalWithdrawals == 0.0
  {
    FinishedCountBound(db.rooms);
    BotStats(
      |db.users|,
      FinishedCount(db.rooms),
      FinishedBets(db.rooms),
      SumOfKind(db.txns, ProjectFee),
      SumOfKind(db.txns, Deposit),
      SumOfKind(db.txns, Withdraw))
  }

  /** With no row of a kind the sum is 0, not NULL. */
  lemma {:induction false} SumOfAbsentKind(txns: seq<Txn>, kind: TxnKind)
    requires forall i :: 0 <= i < |txns| ==> txns[i].kind != kind
    ensures SumOfKind(txns, kind) == 0.0
    decreases |txns|
  {
    if |txns| > 0 {
      SumOfAbsentKind(txns[..|txns| - 1], kind);
    }
  }

  /** Appending a transaction raises the total of its own kind by its amount
      and leaves the totals of the other kinds alone. */
  lemma AddTransactionStats(db: Db, user: UserId, amount: real, kind: TxnKind, room: Option<RoomId>, description: string)
    ensures var s := GetBotStats(db);
            var s' := GetBotStats(AddTransaction(db, user, amount, kind, room, description));
            && s'.projectIncome == s.projectIncome + (if kind == ProjectFee then amount else 0.0)
            && s'.totalDeposits == s.totalDeposits + (if kind == Deposit then amount else 0.0)
            && s'.totalWithdrawals == s.totalWithdrawals + (if kind == Withdraw then amount else 0.0)
            && s'.totalGames == s.totalGames && s'.totalUsers == s.totalUsers && s'.totalBets == s.totalBets
  {
    var db' := AddTransaction(db, user, amount, kind, room, description);
    assert db'.txns[..|db'.txns| - 1] == db.txns;
  }

  /** Rewriting one room changes the finished count by that room alone. */
  lemma {:induction false} FinishedCountUpdate(rooms: seq<Room>, k: nat, room: Room)
    requires k < |rooms|
    ensures FinishedCount(rooms[k := room])
         == FinishedCount(rooms) - (if rooms[k].status == Finished then 1 else 0) + (if room.status == Finished then 1 else 0)
    decreases |rooms|
  {
    var rooms' := rooms[k := room];
    var n := |rooms|;
    assert rooms'[..n - 1] == if k == n - 1 then rooms[..n - 1] else rooms[..n - 1][k := room];
    if k < n - 1 {
      FinishedCountUpdate(rooms[..n - 1], k, room);
    }
  }
  /** Rewriting one room changes the sum of finished bets by that room's
      contribution alone: out goes the old row's bet if it was finished, in
      comes the new row's bet if it is. */
  lemma {:induction false} FinishedBetsUpdate(rooms: seq<Room>, k: nat, room: Room)
    requires k < |rooms|
    ensures FinishedBets(rooms[k := room])
         == FinishedBets(rooms) - (if rooms[k].status == Finished then rooms[k].betAmount else 0.0)
                                + (if room.status == Finished then room.betAmount else 0.0)
    decreases |rooms|
  {
    var rooms' := rooms[k := room];
    var n := |rooms|;
    assert rooms'[..n - 1] == if k == n - 1 then rooms[..n - 1] else rooms[..n - 1][k := room];
    if k < n - 1 {
      FinishedBetsUpdate(rooms[..n - 1], k, room);
    }
  }


  /** The finished count never exceeds the number of rooms. */
  lemma {:induction false} FinishedCountBound(rooms: seq<Room>)
    ensures FinishedCount(rooms) <= |rooms|
    decreases |rooms|
  {
    if |rooms| > 0 {
      FinishedCountBound(rooms[..|rooms| - 1]);
    }
  }

  // ------------------------------------------------------------- media

  /** `get_media`: the newest row of the section (by creation time; among
      rows created at the same instant, the one inserted last), or None when
      the section has none. */
  function GetMedia(media: seq<Media>, section: string): (r: Option<Media>)
    ensures r.None? <==> forall i :: 0 <= i < |media| ==> media[i].section != section
    ensures r.Some? ==> r.value in media && r.value.section == section
    ensures r.Some? ==> forall i :: 0 <= i < |media| && media[i].section == section ==> media[i].createdAt <= r.value.createdAt
    decreases |media|
  {
    if |media| == 0 then None
    else
      var last := media[|media| - 1];
      var front := media[..|media| - 1];
      var earlier := GetMedia(front, section);
      assert media == front + [last];
      assert forall i :: 0 <= i < |media| - 1 ==> media[i] == front[i];
      if last.section != section then earlier
      else if earlier.Some? && earlier.value.createdAt > last.createdAt then earlier
      else Some(last)
  }

  /** A row added later than every row of its section is what the next
      lookup of that section returns. */
  lemma AddMediaThenGet(db: Db, section: string, fileType: FileType, fileId: string, caption: string, now: Timestamp)
    requires forall i :: 0 <= i < |db.media| && db.media[i].section == section ==> db.media[i].createdAt < now
    ensures GetMedia(AddMedia(db, section, fileType, fileId, caption, now).media, section)
         == Some(Media(section, fileType, fileId, caption, now))
  {
    var m := AddMedia(db, section, fileType, fileId, caption, now).media;
    assert m[..|m| - 1] == db.media;
  }

  /** Adding a row to one section leaves the lookup of every other section
      unchanged. */
  lemma AddMediaOtherSection(db: Db, section: string, other: string, fileType: FileType, fileId: string, caption: string, now: Timestamp)
    requires other != section
    ensures GetMedia(AddMedia(db, section, fileType, fileId, caption, now).media, other) == GetMedia(db.media, other)
  {
    var m := AddMedia(db, section, fileType, fileId, caption, now).media;
    assert m[..|m| - 1] == db.media;
  }
}

=== FILE: store.dfy ===
/** The bot's persistent store (database.py) as an immutable value: users
    keyed by Telegram id, rooms in creation order, an append-only list of
    transactions and the media rows. Every write is a pure function from the
    old store to the new one. */
module Store {
  import opened Base

  /** A row of the `users` table. */
  datatype User = User(
    userId: UserId,
    username: Option<string>,
    firstName: string,
    lastName: string,
    balance: real,
    totalWins: nat,
    totalLosses: nat,
    totalBet: real,
    isBanned: bool,
    createdAt: Timestamp)

  /** The values the `status` column of a room takes. */
  datatype Status = Waiting | WaitingPayment | Finished

  /** A row of the `rooms` table. */
  datatype Room = Room(
    id: RoomId,
    creatorId: UserId,
    player1Id: UserId,
    player2Id: Option<UserId>,
    betAmount: real,
    status: Status,
    player1Paid: bool,
    player2Paid: bool,
    invoiceId: Option<InvoiceId>,
    invoiceId2: Option<InvoiceId>,
    player1Dice: Option<int>,
    player2Dice: Option<int>,
    winnerId: Option<UserId>,
    prizeAmount: Option<real>,
    createdAt: Timestamp,
    finishedAt: Option<Timestamp>)

  /** The values the `type` column of a transaction takes. */
  datatype TxnKind = Deposit | Withdraw | Win | ProjectFee

  /** A row of the `transactions` table. */
  datatype Txn = Txn(userId: UserId, amount: real, kind: TxnKind, roomId: Option<RoomId>, description: string)

  /** The kinds of media file the admin can attach to a section. */
  datatype FileType = Photo | Video | Gif

  /** A row of the `media` table. */
  datatype Media = Media(section: string, fileType: FileType, fileId: string, caption: string, createdAt: Timestamp)

  /** The whole store. The room with id `k` is `rooms[k - 1]`: ids are
      handed out from 1 and rows are never deleted. */
  datatype Db = Db(users: map<UserId, User>, rooms: seq<Room>, txns: seq<Txn>, media: seq<Media>)

  /** Every room sits at the index its id names. */
  ghost predicate RoomIdsMatch(db: Db) {
    forall i :: 0 <= i < |db.rooms| ==> db.rooms[i].id == i + 1
  }

  // ---------------------------------------------------------------- users

  /** `add_user`: INSERT OR IGNORE keyed on the Telegram id. */
  function AddUser(db: Db, id: UserId, username: Option<string>, firstName: string, lastName: string, now: Timestamp): (r: Db)
    ensures id in r.users
    ensures id in db.users ==> r == db
    ensures id !in db.users ==>
      && r.users == db.users[id := User(id, username, firstName, lastName, 0.0, 0, 0, 0.0, false, now)]
      && r.rooms == db.rooms && r.txns == db.txns && r.media == db.media
  {
    if id in db.users then db
    else db.(users := db.users[id := User(id, username, firstName, lastName, 0.0, 0, 0, 0.0, false, now)])
  }

  /** `get_user`. */
  function GetUser(db: Db, id: UserId): (r: Option<User>)
    ensures r.Some? <==> id in db.users
    ensures r.Some? ==> r.value == db.users[id]
  {
    if id in db.users then Some(db.users[id]) else None
  }

  /** `update_user_balance`: an atomic `balance = balance + amount` on the
      matching user; nothing happens when there is none. */
  function UpdateUserBalance(db: Db, id: UserId, amount: real): (r: Db)
    ensures r.users.Keys == db.users.Keys
    ensures id in db.users ==> r.users[id] == db.users[id].(balance := db.users[id].balance + amount)
    ensures forall u :: u in db.users && u != id ==> r.users[u] == db.users[u]
    ensures r.users == Credited(db.users, id, amount)
    ensures r.rooms == db.rooms && r.txns == db.txns && r.media == db.media
  {
    db.(users := Credited(db.users, id, amount))
  }

  /** The accounts after `amount` is added to the balance of `id`. */
  function Credited(users: map<UserId, User>, id: UserId, amount: real): (r: map<UserId, User>)
    ensures r.Keys == users.Keys
  {
    if id in users then users[id := users[id].(balance := users[id].balance + amount)] else users
  }

  /** `ban_user`: sets the banned flag of every user with that username. A
      user whose username is NULL never matches. */
  function BanUser(db: Db, username: string, ban: bool): (r: Db)
    ensures r.users.Keys == db.users.Keys
    ensures forall u :: u in db.users && db.users[u].username == Some(username) ==>
      r.users[u] == db.users[u].(isBanned := ban)
    ensures forall u :: u in db.users && db.users[u].username != Some(username) ==>
      r.users[u] == db.users[u]
    ensures r.rooms == db.rooms && r.txns == db.txns && r.media == db.media
  {
    db.(users := map u | u in db.users ::
      if db.users[u].username == Some(username) then db.users[u].(isBanned := ban) else db.users[u])
  }

  // ---------------------------------------------------------------- rooms

  /** The row `create_room` inserts: the creator is player 1, the status is
      'waiting', nobody has paid, and everything else is NULL. */
  function NewRoom(id: RoomId, creator: UserId, bet: real, now: Timestamp): Room
  {
    Room(id, creator, creator, None, bet, Waiting, false, false, None, None, None, None, None, None, now, None)
  }

  /** `get_room`. */
  function GetRoom(db: Db, id: RoomId): (r: Option<Room>)
    ensures r.Some? <==> 1 <= id <= |db.rooms|
    ensures r.Some? ==> r.value == db.rooms[id - 1]
  {
    if 1 <= id <= |db.rooms| then Some(db.rooms[id - 1]) else None
  }

  /** `create_room`: inserts a fresh room and returns its id. */
  function CreateRoom(db: Db, creator: UserId, bet: real, now: Timestamp): (r: (Db, RoomId))
    ensures GetRoom(db, r.1) == None
    ensures GetRoom(r.0, r.1) == Some(NewRoom(r.1, creator, bet, now))
    ensures r.0.rooms[..|db.rooms|] == db.rooms && |r.0.rooms| == |db.rooms| + 1
    ensures r.0.users == db.users && r.0.txns == db.txns && r.0.media == db.media
    ensures RoomIdsMatch(db) ==> RoomIdsMatch(r.0)
  {
    var id := |db.rooms| + 1;
    (db.(rooms := db.rooms + [NewRoom(id, creator, bet, now)]), id)
  }

  /** The typed form of `update_room`'s keyword arguments: a field that is
      Some is written, a field that is None is left alone. `winnerId` is
      doubly optional because the settlement writes NULL there on a tie. */
  datatype RoomPatch = RoomPatch(
    player2Id: Option<UserId>,
    invoiceId: Option<InvoiceId>,
    invoiceId2: Option<InvoiceId>,
    status: Option<Status>,
    player1Paid: Option<bool>,
    player2Paid: Option<bool>,
    player1Dice: Option<int>,
    player2Dice: Option<int>,
    winnerId: Option<Option<UserId>>,
    prizeAmount: Option<real>,
    finishedAt: Option<Timestamp>)

  const NoChange := RoomPatch(None, None, None, None, None, None, None, None, None, None, None)

  function Pick<T>(field: Option<T>, prev: T): T {
    if field.Some? then field.value else prev
  }

  function PickOpt<T>(field: Option<T>, prev: Option<T>): Option<T> {
    if field.Some? then Some(field.value) else prev
  }

  /** The SET clause of `update_room` applied to one row. */
  function ApplyPatch(room: Room, p: RoomPatch): (r: Room)
    // columns the patch cannot name never change
    ensures r.id == room.id && r.creatorId == room.creatorId && r.player1Id == room.player1Id
    ensures r.betAmount == room.betAmount && r.createdAt == room.createdAt
    // a named column takes the new value, an unnamed one keeps the old
    ensures r.player2Id == (if p.player2Id.Some? then p.player2Id else room.player2Id)
    ensures r.invoiceId == (if p.invoiceId.Some? then p.invoiceId else room.invoiceId)
    ensures r.invoiceId2 == (if p.invoiceId2.Some? then p.invoiceId2 else room.invoiceId2)
    ensures r.status == (if p.status.Some? then p.status.value else room.status)
    ensures r.player1Paid == (if p.player1Paid.Some? then p.player1Paid.value else room.player1Paid)
    ensures r.player2Paid == (if p.player2Paid.Some? then p.player2Paid.value else room.player2Paid)
    ensures r.player1Dice == (if p.player1Dice.Some? then p.player1Dice else room.player1Dice)
    ensures r.player2Dice == (if p.player2Dice.Some? then p.player2Dice else room.player2Dice)
    ensures r.winnerId == (if p.winnerId.Some? then p.winnerId.value else room.winnerId)
    ensures r.prizeAmount == (if p.prizeAmount.Some? then p.prizeAmount else room.prizeAmount)
    ensures r.finishedAt == (if p.finishedAt.Some? then p.finishedAt else room.finishedAt)
  {
    room.(
      player2Id := PickOpt(p.player2Id, room.player2Id),
      invoiceId := PickOpt(p.invoiceId, room.invoiceId),
      invoiceId2 := PickOpt(p.invoiceId2, room.invoiceId2),
      status := Pick(p.status, room.status),
      player1Paid := Pick(p.player1Paid, room.player1Paid),
      player2Paid := Pick(p.player2Paid, room.player2Paid),
      player1Dice := PickOpt(p.player1Dice, room.player1Dice),
      player2Dice := PickOpt(p.player2Dice, room.player2Dice),
      winnerId := Pick(p.winnerId, room.winnerId),
      prizeAmount := PickOpt(p.prizeAmount, room.prizeAmount),
      finishedAt := PickOpt(p.finishedAt, room.finishedAt))
  }

  /** Two successive updates of a room are one update with the later value
      winning on every field both name. */
  function ThenPatch(p: RoomPatch, q: RoomPatch): RoomPatch {
    RoomPatch(
      if q.player2Id.Some? then q.player2Id else p.player2Id,
      if q.invoiceId.Some? then q.invoiceId else p.invoiceId,
      if q.invoiceId2.Some? then q.invoiceId2 else p.invoiceId2,
      if q.status.Some? then q.status else p.status,
      if q.player1Paid.Some? then q.player1Paid else p.player1Paid,
      if q.player2Paid.Some? then q.player2Paid else p.player2Paid,
      if q.player1Dice.Some? then q.player1Dice else p.player1Dice,
      if q.player2Dice.Some? then q.player2Dice else p.player2Dice,
      if q.winnerId.Some? then q.winnerId else p.winnerId,
      if q.prizeAmount.Some? then q.prizeAmount else p.prizeAmount,
      if q.finishedAt.Some? then q.finishedAt else p.finishedAt)
  }

  /** `update_room`: rewrites exactly the named columns of the room with that
      id; an unknown id matches no row and changes nothing. */
  function UpdateRoom(db: Db, id: RoomId, p: RoomPatch): (r: Db)
    ensures |r.rooms| == |db.rooms|
    ensures GetRoom(db, id).Some? ==> GetRoom(r, id) == Some(ApplyPatch(GetRoom(db, id).value, p))
    ensures forall k :: 0 <= k < |db.rooms| && k != id - 1 ==> r.rooms[k] == db.rooms[k]
    ensures r.users == db.users && r.txns == db.txns && r.media == db.media
    ensures RoomIdsMatch(db) ==> RoomIdsMatch(r)
  {
    if 1 <= id <= |db.rooms| then db.(rooms := db.rooms[id - 1 := ApplyPatch(db.rooms[id - 1], p)]) else db
  }

  /** An update that names no column is the identity. */
  lemma NoChangeIsIdentity(db: Db, id: RoomId)
    ensures UpdateRoom(db, id, NoChange) == db
  {
    if 1 <= id <= |db.rooms| {
      assert ApplyPatch(db.rooms[id - 1], NoChange) == db.rooms[id - 1];
      assert db.rooms[id - 1 := db.rooms[id - 1]] == db.rooms;
    }
  }

  /** Updating twice is updating once with the combined patch. */
  lemma UpdatesCompose(db: Db, id: RoomId, p: RoomPatch, q: RoomPatch)
    ensures UpdateRoom(UpdateRoom(db, id, p), id, q) == UpdateRoom(db, id, ThenPatch(p, q))
  {
    if 1 <= id <= |db.rooms| {
      var room := db.rooms[id - 1];
      assert ApplyPatch(ApplyPatch(room, p), q) == ApplyPatch(room, ThenPatch(p, q));
      assert db.rooms[id - 1 := ApplyPatch(room, p)][id - 1 := ApplyPatch(ApplyPatch(room, p), q)]
          == db.rooms[id - 1 := ApplyPatch(room, ThenPatch(p, q))];
    }
  }

  // --------------------------------------------------------- transactions

  /** `add_transaction`: appends exactly one row. */
  function AddTransaction(db: Db, user: UserId, amount: real, kind: TxnKind, room: Option<RoomId>, description: string): (r: Db)
    ensures |r.txns| == |db.txns| + 1
    ensures r.txns[..|db.txns|] == db.txns
    ensures r.txns[|db.txns|] == Txn(user, amount, kind, room, description)
    ensures r.users == db.users && r.rooms == db.rooms && r.media == db.media
  {
    db.(txns := db.txns + [Txn(user, amount, kind, room, description)])
  }

  // ---------------------------------------------------------------- media

  /** `add_media`: appends one media row. */
  function AddMedia(db: Db, section: string, fileType: FileType, fileId: string, caption: string, now: Timestamp): (r: Db)
    ensures r.media == db.media + [Media(section, fileType, fileId, caption, now)]
    ensures r.users == db.users && r.rooms == db.rooms && r.txns == db.txns
  {
    db.(media := db.media + [Media(section, fileType, fileId, caption, now)])
  }
}

=== FILE: text.dfy ===
/** The string handling the bot's callback data relies on: Python's
    `str.split`, `str(int)` and `int(str)` restricted to what the
    callback strings use. */
module Text {
  import opened Base

  /** The separator between the fields of callback data. */
  const Sep: char := '_'

  /** Glue the parts back together with `sep` between neighbours. */
  function Join(parts: seq<string>, sep: char): string
    requires |parts| > 0
    decreases |parts|
  {
    if |parts| == 1 then parts[0] else parts[0] + [sep] + Join(parts[1..], sep)
  }

  /** Python's `s.split(sep)`: always at least one field, and no field
      contains the separator (SplitJoin: joining the fields gives `s` back). */
  function Split(s: string, sep: char): (parts: seq<string>)
    ensures |parts| > 0
    ensures forall i :: 0 <= i < |parts| ==> sep !in parts[i]
    decreases |s|
  {
    if |s| == 0 then [""]
    else
      var rest := Split(s[1..], sep);
      if s[0] == sep then [""] + rest
      else [[s[0]] + rest[0]] + rest[1..]
  }

  /** Joining the fields of a split with the separator gives the string
      back: nothing is lost or added. */
  lemma {:induction false} SplitJoin(s: string, sep: char)
    ensures Join(Split(s, sep), sep) == s
    decreases |s|
  {
    if |s| > 0 {
      var rest := Split(s[1..], sep);
      SplitJoin(s[1..], sep);
      if s[0] == sep {
        assert ([""] + rest)[1..] == rest;
      } else {
        var parts := [[s[0]] + rest[0]] + rest[1..];
        assert parts[1..] == rest[1..];
        assert s == [s[0]] + s[1..];
        if |rest| > 1 {
          assert Join(rest, sep) == rest[0] + [sep] + Join(rest[1..], sep);
        }
      }
    }
  }

  /** The longest prefix of `s` that does not contain `c`. */
  function BeforeFirst(s: string, c: char): (p: string)
    ensures c !in p
    ensures p <= s
    ensures |p| < |s| ==> s[|p|] == c
    decreases |s|
  {
    if |s| == 0 || s[0] == c then "" else [s[0]] + BeforeFirst(s[1..], c)
  }

  /** Python's `s.split(c, 1)[1]`: everything after the first `c`, or None
      when `s` has no `c` (Python raises IndexError there). */
  function AfterFirst(s: string, c: char): (r: Option<string>)
    ensures r.None? <==> c !in s
    ensures r.Some? ==> s == BeforeFirst(s, c) + [c] + r.value
  {
    var p := BeforeFirst(s, c);
    if |p| == |s| then
      assert p == s;
      None
    else
      assert s == p + [c] + s[|p| + 1..];
      Some(s[|p| + 1..])
  }

  /** Python's `s.split(sep)[i]`, or None where Python raises IndexError. */
  function Field(s: string, sep: char, i: nat): Option<string>
  {
    var parts := Split(s, sep);
    if i < |parts| then Some(parts[i]) else None
  }

  /** The first field of a split is the text before the first separator. */
  lemma {:induction false} SplitHead(s: string, sep: char)
    ensures Split(s, sep)[0] == BeforeFirst(s, sep)
    decreases |s|
  {
    if |s| > 0 && s[0] != sep {
      SplitHead(s[1..], sep);
    }
  }

  /** A prefix free of the separator is split off as the first field, and
      the rest is split on its own. */
  lemma {:induction false} SplitAfterPrefix(prefix: string, sep: char, rest: string)
    requires sep !in prefix
    ensures Split(prefix + [sep] + rest, sep) == [prefix] + Split(rest, sep)
    decreases |prefix|
  {
    var s := prefix + [sep] + rest;
    if |prefix| > 0 {
      assert s[1..] == prefix[1..] + [sep] + rest;
      SplitAfterPrefix(prefix[1..], sep, rest);
      assert [prefix[0]] + prefix[1..] == prefix;
    } else {
      assert s[1..] == rest;
    }
  }

  /** A string without the separator splits into itself alone. */
  lemma {:induction false} SplitFree(s: string, sep: char)
    requires sep !in s
    ensures Split(s, sep) == [s]
    decreases |s|
  {
    if |s| > 0 {
      SplitFree(s[1..], sep);
      assert [s[0]] + s[1..] == s;
    }
  }

  /** `(prefix + sep + payload).split(sep)[0]` is the prefix. */
  lemma FirstFieldOfTagged(prefix: string, sep: char, payload: string)
    requires sep !in prefix
    ensures Field(prefix + [sep] + payload, sep, 0) == Some(prefix)
  {
    SplitAfterPrefix(prefix, sep, payload);
  }

  /** `(prefix + sep + payload).split(sep)[1]` is the payload cut at its own
      first separator: the payload itself exactly when it has no separator. */
  lemma SecondFieldOfTagged(prefix: string, sep: char, payload: string)
    requires sep !in prefix
    ensures Field(prefix + [sep] + payload, sep, 1) == Some(BeforeFirst(payload, sep))
    ensures Field(prefix + [sep] + payload, sep, 1) == Some(payload) <==> sep !in payload
  {
    SplitAfterPrefix(prefix, sep, payload);
    SplitHead(payload, sep);
    var p := BeforeFirst(payload, sep);
    if sep in payload {
      if p == payload {
        assert false;
      }
    } else {
      SplitFree(payload, sep);
    }
  }

  /** The text before the first separator of `prefix + sep + payload` is
      the prefix. */
  lemma BeforeFirstOfTagged(prefix: string, sep: char, payload: string)
    requires sep !in prefix
    ensures BeforeFirst(prefix + [sep] + payload, sep) == prefix
  {
    SplitAfterPrefix(prefix, sep, payload);
    SplitHead(prefix + [sep] + payload, sep);
  }

  /** `(prefix + sep + payload).split(sep, 1)[1]` is the payload, whatever
      it contains. */
  lemma AfterFirstOfTagged(prefix: string, sep: char, payload: string)
    requires sep !in prefix
    ensures AfterFirst(prefix + [sep] + payload, sep) == Some(payload)
  {
    var s := prefix + [sep] + payload;
    SplitAfterPrefix(prefix, sep, payload);
    SplitHead(s, sep);
    assert BeforeFirst(s, sep) == prefix;
    assert sep in s by { assert s[|prefix|] == sep; }
    var r := AfterFirst(s, sep);
    assert s == prefix + [sep] + r.value;
    assert r.value == s[|prefix| + 1..];
  }

  predicate IsDigit(ch: char) { '0' <= ch <= '9' }

  predicate AllDigits(s: string) { forall i :: 0 <= i < |s| ==> IsDigit(s[i]) }

  function DigitChar(d: nat): (ch: char)
    requires d < 10
  {
    ('0' as int + d) as char
  }

  function DigitValue(ch: char): nat
    requires IsDigit(ch)
  {
    ch as int - '0' as int
  }

  /** Python's `str(n)` for a non-negative integer: decimal digits, most
      significant first, no leading zero. */
  function NatToString(n: nat): (s: string)
    ensures |s| > 0 && AllDigits(s)
    ensures |s| > 1 ==> s[0] != '0'
    decreases n
  {
    if n < 10 then [DigitChar(n)]
    else
      var hi := NatToString(n / 10);
      assert (hi + [DigitChar(n % 10)])[0] == hi[0];
      hi + [DigitChar(n % 10)]
  }

  /** The number a non-empty run of decimal digits denotes. */
  function DigitsValue(s: string): nat
    requires AllDigits(s)
    decreases |s|
  {
    if |s| == 0 then 0 else 10 * DigitsValue(s[..|s| - 1]) + DigitValue(s[|s| - 1])
  }

  /** Python's `int(s)` on the strings the bot produces: a non-empty run of
      decimal digits. Anything else is None, where Python would raise
      ValueError. */
  function ParseNat(s: string): Option<nat>
  {
    if |s| > 0 && AllDigits(s) then Some(DigitsValue(s)) else None
  }

  /** Parsing the decimal rendering of a number gives the number back. */
  lemma {:induction false} ParseNatRoundTrip(n: nat)
    ensures ParseNat(NatToString(n)) == Some(n)
    decreases n
  {
    var s := NatToString(n);
    if n >= 10 {
      var hi := NatToString(n / 10);
      assert s == hi + [DigitChar(n % 10)];
      assert s[..|s| - 1] == hi;
      ParseNatRoundTrip(n / 10);
      assert DigitsValue(s) == 10 * (n / 10) + n % 10;
    }
  }

  /** Decimal renderings never contain the callback separator. */
  lemma DigitsHaveNoSep(n: nat)
    ensures Sep !in NatToString(n)
  {
  }
}
